=== FILE: README.md ===
# Career portal application flow in Dafny

This project models the application flow of the career portal's single
React component, `CareerPortal`. A visitor picks a job posting and fills
in a ten-field application form. They attach a PDF CV and, optionally, an
MP4 video, and solve a reCAPTCHA widget. Then they submit. The component:

- validates attachments when they are chosen (`validateFile`);
- validates the whole form fail-fast on submit (`validateForm`);
- builds a multipart payload and posts it;
- shows either a confirmation screen or an error banner.

Among the navigation handlers, only "Back to all positions" (and the job page's Cancel button) resets the
form and forgets the widget id. "View More Positions" returns from the
confirmation to the listing and keeps the widget id. Clicking a job card
only sets the selected job.

The model has seven modules:

- `Text`: the ECMAScript whitespace class and `String.prototype.trim`.
- `Patterns`: the e-mail regular expression, read literally and as an
  equivalent structural description, plus the phone and LinkedIn tests.
- `Attachments`: `validateFile`.
- `Form`: the form fields, `handleInputChange`'s single-field update, the
  initial values and `validateForm`. The validator is a walk over the
  twelve check verdicts in source order.
- `Submission`: the job record, the payload `handleSubmit` builds, and the
  error text chosen after a failed request.
- `Portal`: the component as a state machine. It holds the React state
  plus the widget-id ref, one transition per handler or callback, the
  render precedence that picks the screen, and an invariant kept by every
  event.
- `Optional`: the `Option` type.

`handleSubmit` is split at its `await`:

- `BeginSubmit` is the synchronous part: validation, then either the error
  or going in flight with the payload.
- `FinishSubmit` is the part after the request settles.

The request's result is an `Outcome` parameter: delivered, rejected with an
optional server message, or unreachable with an error message. The
timestamp `new Date().toISOString()` is a `submittedAt` parameter. A widget
id returned by `grecaptcha.render` is a parameter of the `RenderWidget`
event.

Clicking a job card (`career-portal/src/CareerPortal.jsx:727`) only sets
the selected job; it does not reset the form. `Portal.SelectJob` keeps the
form as it is.

## Model

| member | source | states |
|---|---|---|
| Text.TrimStartKeepsSuffix | career-portal/src/CareerPortal.jsx:233 | `trim`'s leading half keeps the longest suffix not starting with whitespace and removes only whitespace |
| Text.TrimEndKeepsPrefix | career-portal/src/CareerPortal.jsx:233 | `trim`'s trailing half keeps the longest prefix not ending with whitespace and removes only whitespace |
| Text.TrimIsWhitespaceFreeSlice | career-portal/src/CareerPortal.jsx:233 | the trimmed text is a contiguous slice of the input with whitespace-only margins and non-whitespace ends |
| Text.Trim | career-portal/src/CareerPortal.jsx:233 | `String.prototype.trim`: `TrimStart` then `TrimEnd`; what it keeps is stated by `Text.TrimIsWhitespaceFreeSlice` |
| Text.IsBlank | career-portal/src/CareerPortal.jsx:233-242 | the test `!x.trim()`; characterised by `Text.BlankIffAllWhitespace` |
| Text.BlankIffAllWhitespace | career-portal/src/CareerPortal.jsx:233-242 | the test `!x.trim()` holds exactly when every character of `x` is whitespace (the empty string included) |
| Patterns.EmailPattern | career-portal/src/CareerPortal.jsx:236 | the e-mail expression read literally: a non-empty run, `@`, a non-empty run, `.`, a non-empty run, each run free of whitespace and `@`, for some placing of the `@` and the `.`; characterised by `Patterns.EmailPatternIffShape` |
| Patterns.PhonePattern | career-portal/src/CareerPortal.jsx:237 | `/^[\d\s+()-]+$/`: at least one character, every one a digit, whitespace, `+`, `(`, `)` or `-` |
| Patterns.StartsWithHttp | career-portal/src/CareerPortal.jsx:238 | `startsWith('http')` on the untrimmed value |
| Patterns.Count | career-portal/src/CareerPortal.jsx:236 | the number of occurrences is at most the length and is zero exactly when the character is absent |
| Patterns.IndexOf | career-portal/src/CareerPortal.jsx:236 | the position found holds the character and no earlier position does |
| Patterns.EmailPatternIffShape | career-portal/src/CareerPortal.jsx:236 | `/^[^\s@]+@[^\s@]+\.[^\s@]+$/` matches exactly the strings with no whitespace, exactly one `@` that is not first, and a `.` in the domain that is neither its first nor its last character |
| Patterns.PatternGivesShape | career-portal/src/CareerPortal.jsx:236 | every match of the e-mail expression has the structural shape |
| Patterns.ShapeGivesPattern | career-portal/src/CareerPortal.jsx:236 | every string of the structural shape matches the e-mail expression |
| Patterns.EmailRejectsWhitespace | career-portal/src/CareerPortal.jsx:236 | an e-mail with whitespace at any position, the ends included, never matches |
| Attachments.ValidateFile | career-portal/src/CareerPortal.jsx:182-202 | a file is accepted iff it is present, at most 10 MiB (CV) or 50 MiB (video), and of type `application/pdf` or `video/mp4`; otherwise the message of the first failing check: missing, then size, then type |
| Attachments.SizeLimitIsInclusive | career-portal/src/CareerPortal.jsx:183-194 | a file of exactly the size limit passes the size check and one byte more fails it |
| Attachments.SizeReportedBeforeType | career-portal/src/CareerPortal.jsx:189-200 | an oversized file of the wrong type is reported as oversized |
| Attachments.MessagesDistinguishViolations | career-portal/src/CareerPortal.jsx:188-199 | the missing-file, size and type messages are pairwise different |
| Form.SetField | career-portal/src/CareerPortal.jsx:175-180 | the named field takes the typed value and every other field keeps its value |
| Form.SetFieldIdempotent | career-portal/src/CareerPortal.jsx:175-180 | re-typing a field's current value changes nothing; a second edit of the same field overrides the first |
| Form.InitialIsEmptyButOfficeWork | career-portal/src/CareerPortal.jsx:148-160 | the restored form has every field empty except `officeWork`, which is "Yes" |
| Form.Holds | career-portal/src/CareerPortal.jsx:233-244 | the twelve checks of `validateForm`: nine presence checks through `!x.trim()`, the e-mail, phone and LinkedIn format checks, a CV, and a non-empty token |
| Form.ValidateForm | career-portal/src/CareerPortal.jsx:232-246 | the fail-fast walk over the twelve verdicts in source order, giving the message of the first failing check or `null`; its properties are stated by `Form.ReportsFirstFailingRule`, `Form.ReportedRuleIsFirstFailure` and `Form.NoneIffEveryCheckHolds` |
| Form.RankIsBijective | career-portal/src/CareerPortal.jsx:233-244 | the twelve checks occupy twelve distinct positions of the validation order |
| Form.VerdictIsCheck | career-portal/src/CareerPortal.jsx:233-244 | the verdict at a check's position is that check's outcome |
| Form.FirstFailureFrom | career-portal/src/CareerPortal.jsx:232-246 | the fail-fast walk finds nothing exactly when every remaining check passes; otherwise it finds a failing check, and every check before it passes |
| Form.WalkStopsAtFirstFailure | career-portal/src/CareerPortal.jsx:232-246 | a failure preceded only by passes is where the walk stops |
| Form.PassesBeforeMeansEarlierChecksHold | career-portal/src/CareerPortal.jsx:233-244 | "every earlier position passes" is the same as "every check ranked earlier holds", both ways |
| Form.ReportsFirstFailingRule | career-portal/src/CareerPortal.jsx:232-246 | a failing check all of whose predecessors pass is the reported one, whatever later checks say |
| Form.ReportedRuleIsFirstFailure | career-portal/src/CareerPortal.jsx:232-246 | a reported message belongs to a failing check all of whose predecessors pass |
| Form.ReportedMessageNamesFailingCheck | career-portal/src/CareerPortal.jsx:232-246 | the reported message identifies its check, and that check fails |
| Form.MessageRoundTrip | career-portal/src/CareerPortal.jsx:233-244 | each check's message leads back to that check |
| Form.MessagesIdentifyRules | career-portal/src/CareerPortal.jsx:233-244 | different checks report different messages |
| Form.NoneIffEveryCheckHolds | career-portal/src/CareerPortal.jsx:232-246 | `validateForm` returns `null` exactly when all twelve checks hold |
| Form.HoldsIgnoresToken | career-portal/src/CareerPortal.jsx:233-244 | only the CAPTCHA check reads the token, and it is ranked after the eleven others |
| Form.NoneIffFieldsAndToken | career-portal/src/CareerPortal.jsx:232-246 | `validateForm` returns `null` exactly when the eleven token-independent checks pass and a non-empty token is held |
| Form.ValidHasCvAndToken | career-portal/src/CareerPortal.jsx:243-245 | a form that passes validation has a CV and a non-empty token |
| Form.ValidIffSubmittable | career-portal/src/CareerPortal.jsx:232-246 | `validateForm` returns `null` exactly for applications whose required texts are not all whitespace, whose e-mail has the structural shape, whose phone and LinkedIn are empty or well formed, and which have a CV and a non-empty token |
| Form.ShapedEmailIsNotBlank | career-portal/src/CareerPortal.jsx:235-236 | an e-mail that passes the format check also passes the presence check |
| Form.BlankEmailIsMissing | career-portal/src/CareerPortal.jsx:233-235 | with both names given, an empty or whitespace-only e-mail gives "Email is required" |
| Form.PaddedEmailIsMalformed | career-portal/src/CareerPortal.jsx:235-236 | the e-mail is trimmed only for the presence check, so a non-blank e-mail with any whitespace gives "Invalid email format" |
| Form.EmptyPhonePasses | career-portal/src/CareerPortal.jsx:237 | an empty phone number is never the reported problem, whatever the other fields hold |
| Form.EmptyLinkedInPasses | career-portal/src/CareerPortal.jsx:238 | an empty LinkedIn value is never the reported problem, whatever the other fields hold |
| Form.LinkedInMustStartWithHttp | career-portal/src/CareerPortal.jsx:238 | LinkedIn is not trimmed: with the earlier checks passing, a leading space or any non-`http` start is reported |
| Form.MissingWhyApplyReported | career-portal/src/CareerPortal.jsx:239 | with the earlier checks passing, a blank "why apply" answer gives "Please answer why you applied" |
| Submission.BuildPayload | career-portal/src/CareerPortal.jsx:262-281 | the part names are the form keys, then the seven job keys, `submittedAt`, `cv`, `video` only when a video is attached, and `recaptchaToken` last; each form part is the field's key with its value |
| Submission.BuiltPayloadNamesDistinct | career-portal/src/CareerPortal.jsx:262-281 | no part name occurs twice |
| Submission.PayloadLayout | career-portal/src/CareerPortal.jsx:268-280 | after the ten form parts come the seven job parts in order, then `submittedAt`, `cv` and, when attached, `video` |
| Submission.PayloadRoundTripFields | career-portal/src/CareerPortal.jsx:264-266 | reading the payload back by any form key gives that field's value |
| Submission.PayloadRoundTripRoleAndTime | career-portal/src/CareerPortal.jsx:268-275 | reading back `appliedRole` gives the job title and `submittedAt` the timestamp |
| Submission.PayloadRoundTripJobPlace | career-portal/src/CareerPortal.jsx:269-270 | reading back `jobDepartment` gives the job's department and `jobLocation` its location |
| Submission.PayloadRoundTripJobKind | career-portal/src/CareerPortal.jsx:271-272 | reading back `jobType` gives the job's type and `jobDescription` its description |
| Submission.PayloadRoundTripJobLists | career-portal/src/CareerPortal.jsx:273-274 | reading back `jobResponsibilities` and `jobRequirements` gives the job's two lists |
| Submission.PayloadRoundTripCvAndToken | career-portal/src/CareerPortal.jsx:277-281 | reading back `cv` gives the CV and `recaptchaToken` the token |
| Submission.PayloadRoundTripVideo | career-portal/src/CareerPortal.jsx:278-280 | a `video` part exists exactly when a video is attached, and then it is that video |
| Submission.TextPartsOfPayload | career-portal/src/CareerPortal.jsx:262-281 | every payload has exactly 19 non-file parts |
| Submission.FailureMessage | career-portal/src/CareerPortal.jsx:290-300 | the error text is never empty; a non-empty server message or network error message is shown as is, otherwise "Submission failed" or the connection fallback |
| Portal.ViewOf | career-portal/src/CareerPortal.jsx:324-361 | the job page is shown only for the selected job |
| Portal.ResetForm | career-portal/src/CareerPortal.jsx:148-173 | form, files, error and token return to their initial values; the job, the flags and the widget id are kept |
| Portal.InputChanged | career-portal/src/CareerPortal.jsx:175-180 | one field changes and nothing else in the state does |
| Portal.FileChanged | career-portal/src/CareerPortal.jsx:204-222 | a cancelled chooser changes nothing; a rejected file only sets the error and keeps both slots; an accepted file fills its own slot, leaves the other, and clears the error |
| Portal.FileRemoved | career-portal/src/CareerPortal.jsx:224-230 | only the chosen slot is emptied; the error stays |
| Portal.CaptchaVerified | career-portal/src/CareerPortal.jsx:133-136 | the token is stored and the error cleared; nothing else changes |
| Portal.CaptchaExpired | career-portal/src/CareerPortal.jsx:138-141 | the token is dropped and the expiry message shown; nothing else changes |
| Portal.CaptchaFailed | career-portal/src/CareerPortal.jsx:143-146 | the token is dropped and the refresh message shown; nothing else changes |
| Portal.CaptchaReady | career-portal/src/CareerPortal.jsx:93-106 | the script counts as loaded; nothing else changes |
| Portal.WidgetRendered | career-portal/src/CareerPortal.jsx:118-131 | a widget id is stored only when the script is loaded, a job is selected and no id is held yet |
| Portal.BeginSubmit | career-portal/src/CareerPortal.jsx:248-281 | an invalid form gets the validator's message and nothing is sent; a valid one has a CV and a token, clears the error, goes in flight and sends the payload of the current state |
| Portal.FinishSubmit | career-portal/src/CareerPortal.jsx:283-314 | success resets the form and shows the confirmation; failure shows the failure message and keeps every entry, dropping the token only when a widget id is held; either way the request is no longer in flight, and the job, the widget id and the script's loaded flag are kept |
| Portal.BackToJobs | career-portal/src/CareerPortal.jsx:317-322 | no job, a pristine form and no widget id |
| Portal.ViewMorePositions | career-portal/src/CareerPortal.jsx:348-351 | the confirmation and the job are cleared, and everything else, the widget id included, is kept |
| Portal.SelectJob | career-portal/src/CareerPortal.jsx:727 | the clicked job becomes the selected one and nothing else changes |
| Portal.Enabled | career-portal/src/CareerPortal.jsx:324-361 | which controls the screen on show renders: job cards on the listing (727), the form, file, submit, back and Cancel controls on the job page (366, 680, 689-690), "View More Positions" on the confirmation (348), and none while submitting; widget callbacks and the script's load are not tied to a screen |
| Portal.Step | career-portal/src/CareerPortal.jsx:248-259 | an event whose control is not on screen does nothing; a payload is sent exactly when a submit from the job page passes validation |
| Portal.StepRunsHandler | career-portal/src/CareerPortal.jsx:348-727 | each enabled event runs the handler it is wired to: job card `setSelectedJob` (727), inputs `handleInputChange`, file inputs `handleFileChange` and remove buttons `removeFile` with their kind (594-639), submit `handleSubmit` (689), back and Cancel `handleBackToJobs` (366, 681), "View More Positions" (348); and the script load and the widget's three callbacks (lines 100, 123-125) run theirs in every state |
| Portal.SubmitThroughEvents | career-portal/src/CareerPortal.jsx:248-315 | pressing submit and then letting the request settle, as two events, ends in the state `Submit` describes and sends the same payload; an invalid form stops after the first event |
| Portal.Submit | career-portal/src/CareerPortal.jsx:248-315 | a whole submission: the validator's message and the same page when invalid; the confirmation with a pristine form on success; the same page with every entry and the failure message on failure, with the widget id kept and the token gone iff a widget was held or none was present; the script's loaded flag never changes |
| Portal.StartSatisfiesInv | career-portal/src/CareerPortal.jsx:5-26 | the initial state shows the listing and satisfies the invariant |
| Portal.StepPreservesInv | career-portal/src/CareerPortal.jsx:248-322 | every event keeps the invariant: a request in flight belongs to a selected job and a valid form, the confirmation follows a reset form, and a widget exists only once the script has loaded |
| Portal.RunPreservesInv | career-portal/src/CareerPortal.jsx:248-322 | every state reachable by events from an invariant state satisfies the invariant |
| Portal.ViewDeterminesFlags | career-portal/src/CareerPortal.jsx:324-361 | in a reachable state, the screen shown determines `submitting`, `submitted` and whether a job is selected, and the two flags are never both set |
| Portal.NoSecondRequestInFlight | career-portal/src/CareerPortal.jsx:259 | while a request is in flight no event sends another, and pressing submit changes nothing |
| Portal.OnlyValidApplicationsAreSent | career-portal/src/CareerPortal.jsx:252-259 | a payload leaves only from the job page, for a form that passes validation, with a CV and a non-empty token |
| Portal.SelectThenBackRestoresForm | career-portal/src/CareerPortal.jsx:317-322 | opening a job and going straight back gives the listing with a pristine form and no widget id |
| Portal.WidgetNotRenderedAgainAfterViewMore | career-portal/src/CareerPortal.jsx:348-351 | after "View More Positions" and picking a job, the old widget id is still held, no new widget is rendered, and the token stays empty |
| Portal.WidgetRenderedAgainAfterBack | career-portal/src/CareerPortal.jsx:317-322 | after "Back to all positions" and picking a job, a new widget is rendered |
| Portal.ViewMoreReturnsToListing | career-portal/src/CareerPortal.jsx:348-351 | "View More Positions" leads from the confirmation to the listing |
| Portal.DuplicateApplicationScenario | career-portal/src/CareerPortal.jsx:290-311 | a rejection with body message "Duplicate application" keeps the page and every entry, shows that text, and drops the token when a widget is held |
| Portal.MissingWhyApplyScenario | career-portal/src/CareerPortal.jsx:239-256 | an empty "why apply" answer with the earlier checks passing shows that message, and nothing is sent |

## Left out

- Markup, styling, icons and scrolling (`window.scrollTo`) and console logging: they do not affect the state.
- The three hard-coded job postings (lines 30-91): jobs are arbitrary `Job` values.
- Injecting the reCAPTCHA script and removing it on unmount (lines 99-115): only "the script is loaded" is modelled (`CaptchaReady`).
- The reCAPTCHA widget itself: `grecaptcha.render` returns an id given as an event parameter, and `grecaptcha.reset` changes no state modelled here.
- Exceptions thrown by `grecaptcha.render` or `grecaptcha.reset` (lines 127-129, 169-171, 308-310): a held widget id always has its token cleared after a failed request.
- The render effect's check that the widget container element exists: `RenderWidget` can only happen while the job page is shown.
- `fetch`, the endpoint URL and JSON parsing of an error body: the request's result is the `Outcome` parameter. A non-2xx body that is not JSON, has no `message` or a falsy one is `Rejected(None)` and shows "Submission failed". A truthy non-string `message` (such as `42`) is `Rejected(Some(...))` holding its string form, which `new Error` produces; when that string form is empty (such as `[]` or `[""]`) the error's message is empty and the `catch` shows the connection fallback, so that body is `Unreachable("")`. A body that is JSON `null` makes `errorData.message` throw a `TypeError` inside the `try` (line 292); that is `Unreachable` with the `TypeError`'s text, like any other exception caught at line 299.
- `JSON.stringify` of the job's lists: the payload keeps the list (`JsonList`), not its JSON text.
- `new Date().toISOString()`: the `submittedAt` parameter.
- The reCAPTCHA callbacks (`Verified`, `Expired`, `WidgetError`) are enabled in every state, and `widget` stands both for "an id is held" and "a widget is on the page". In the source, once the submitting screen has replaced the job page (lines 324-336) and a request fails, the render effect does not run again, so no widget is shown and no new token can arrive; "View More Positions" leaves the same stale id. The model allows callbacks there, which over-approximates what the page can deliver.
- The job's `id` (used only as the React list key, line 725): `Job` has no such field.
- React's batching of state updates and re-rendering: each handler is one atomic transition.
- String-typed keys: the file kind `'cv'`/`'video'` and the input `name` are enumerations. Every kind other than `'cv'` takes the video branch in the source, so two kinds cover it.
- Portal.BeginSubmit: requires a selected job; the source reads `selectedJob.title` unguarded, and the submit button exists only on the job page.
- Portal.Submit: requires the job page to be shown, for the same reason.

=== FILE: attachments.dfy ===
/**
 * The attachment gate of the application form: which files may fill the
 * CV and video slots, and the message shown for a file that may not.
 */
module Attachments {
  import opened Optional

  /** The two upload slots. The source passes the string 'cv' or 'video'; every value other than 'cv' takes the video branch. */
  datatype FileKind = Cv | Video

  /** What the gate reads of a browser `File`: its size in bytes and its MIME type. */
  datatype FileInfo = FileInfo(size: nat, mimeType: string)

  const MiB: nat := 1024 * 1024

  /** Largest accepted size in bytes: 10 MiB for a CV, 50 MiB for a video. */
  function MaxSize(kind: FileKind): nat {
    if kind == Cv then 10 * MiB else 50 * MiB
  }

  /** The single MIME type accepted for each slot. */
  function AllowedType(kind: FileKind): string {
    if kind == Cv then "application/pdf" else "video/mp4"
  }

  const NoFileMessage := "No file selected"

  function SizeMessage(kind: FileKind): string {
    if kind == Cv then "CV file must be less than 10MB" else "Video file must be less than 50MB"
  }

  function TypeMessage(kind: FileKind): string {
    if kind == Cv then "Invalid file type. Please upload a PDF file only"
    else "Invalid file type. Please upload an MP4 video only"
  }

  /** A file the gate lets through: not above the size limit and of the allowed type. */
  predicate Acceptable(f: FileInfo, kind: FileKind) {
    f.size <= MaxSize(kind) && f.mimeType == AllowedType(kind)
  }

  /**
   * `validateFile`: `None` when the file is accepted, otherwise the message
   * of the first failing check, in the order missing file, size, type.
   */
  function ValidateFile(file: Option<FileInfo>, kind: FileKind): (r: Option<string>)
    ensures r == None <==> file.Some? && Acceptable(file.value, kind)
    ensures file == None ==> r == Some(NoFileMessage)
    ensures file.Some? && file.value.size > MaxSize(kind) ==> r == Some(SizeMessage(kind))
    ensures file.Some? && file.value.size <= MaxSize(kind) && file.value.mimeType != AllowedType(kind)
      ==> r == Some(TypeMessage(kind))
  {
    if file.None? then Some(NoFileMessage)
    else if file.value.size > MaxSize(kind) then Some(SizeMessage(kind))
    else if file.value.mimeType !in [AllowedType(kind)] then Some(TypeMessage(kind))
    else None
  }

  /** The size test `size > maxSize` is strict, so the limit itself is allowed: a file of exactly the limit passes it, one byte more does not. */
  lemma SizeLimitIsInclusive(kind: FileKind, mimeType: string)
    ensures ValidateFile(Some(FileInfo(MaxSize(kind), mimeType)), kind) != Some(SizeMessage(kind))
    ensures ValidateFile(Some(FileInfo(MaxSize(kind) + 1, mimeType)), kind) == Some(SizeMessage(kind))
    ensures ValidateFile(Some(FileInfo(MaxSize(kind), AllowedType(kind))), kind) == None
  {
  }

  /** Size is checked before type: an oversized file of the wrong type is reported as oversized. */
  lemma SizeReportedBeforeType(f: FileInfo, kind: FileKind)
    requires f.size > MaxSize(kind) && f.mimeType != AllowedType(kind)
    ensures ValidateFile(Some(f), kind) == Some(SizeMessage(kind))
  {
  }

  /** The size, type and missing-file messages are all different, so the message names the violation. */
  lemma MessagesDistinguishViolations(kind: FileKind)
    ensures SizeMessage(kind) != TypeMessage(kind)
    ensures SizeMessage(kind) != NoFileMessage && TypeMessage(kind) != NoFileMessage
  {
  }
}

=== FILE: form.dfy ===
/**
 * The application form: its ten text fields, the single-field update of
 * `handleInputChange`, the initial values `resetForm` restores, and the
 * fail-fast validator `validateForm`.
 */
module Form {
  import opened Optional
  import opened Text
  import opened Patterns
  import Attachments

  /** The ten inputs of the form, named as their `name` attributes name them. */
  datatype Field =
    | FirstName | LastName | Email | Phone | LinkedIn
    | WhyApply | Strengths | TeamWork | AdaptQuickly | OfficeWork

  /** The `formData` object. Every value is the text of its input; `officeWork` is the value of a Yes/No select. */
  datatype FormData = FormData(
    firstName: string, lastName: string, email: string, phone: string, linkedin: string,
    whyApply: string, strengths: string, teamWork: string, adaptQuickly: string, officeWork: string)

  /** The key order of `formData` (its literal's order, which updates keep). */
  const FieldOrder: seq<Field> :=
    [FirstName, LastName, Email, Phone, LinkedIn, WhyApply, Strengths, TeamWork, AdaptQuickly, OfficeWork]

  /** The key of each field, used as the input's name and as the submitted part's name. */
  function FieldName(f: Field): string {
    match f
    case FirstName => "firstName"
    case LastName => "lastName"
    case Email => "email"
    case Phone => "phone"
    case LinkedIn => "linkedin"
    case WhyApply => "whyApply"
    case Strengths => "strengths"
    case TeamWork => "teamWork"
    case AdaptQuickly => "adaptQuickly"
    case OfficeWork => "officeWork"
  }

  /** `formData[key]`. */
  function Get(d: FormData, f: Field): string {
    match f
    case FirstName => d.firstName
    case LastName => d.lastName
    case Email => d.email
    case Phone => d.phone
    case LinkedIn => d.linkedin
    case WhyApply => d.whyApply
    case Strengths => d.strengths
    case TeamWork => d.teamWork
    case AdaptQuickly => d.adaptQuickly
    case OfficeWork => d.officeWork
  }

  /** `handleInputChange`: `{...formData, [name]: value}` sets one field and keeps every other. */
  function SetField(d: FormData, f: Field, v: string): (r: FormData)
    ensures Get(r, f) == v
    ensures forall g: Field | g != f :: Get(r, g) == Get(d, g)
  {
    match f
    case FirstName => d.(firstName := v)
    case LastName => d.(lastName := v)
    case Email => d.(email := v)
    case Phone => d.(phone := v)
    case LinkedIn => d.(linkedin := v)
    case WhyApply => d.(whyApply := v)
    case Strengths => d.(strengths := v)
    case TeamWork => d.(teamWork := v)
    case AdaptQuickly => d.(adaptQuickly := v)
    case OfficeWork => d.(officeWork := v)
  }

  /** The values the form starts with and `resetForm` restores. */
  const Initial := FormData("", "", "", "", "", "", "", "", "", "Yes")

  /** Every field of the initial form is empty except `officeWork`, which is "Yes". */
  lemma InitialIsEmptyButOfficeWork(f: Field)
    ensures Get(Initial, f) == (if f == OfficeWork then "Yes" else "")
  {
  }

  /** Two forms that agree on every field are the same form. */
  lemma FieldsDetermineForm(a: FormData, b: FormData)
    requires forall f: Field :: Get(a, f) == Get(b, f)
    ensures a == b
  {
    assert Get(a, FirstName) == Get(b, FirstName) && Get(a, LastName) == Get(b, LastName);
    assert Get(a, Email) == Get(b, Email) && Get(a, Phone) == Get(b, Phone);
    assert Get(a, LinkedIn) == Get(b, LinkedIn) && Get(a, WhyApply) == Get(b, WhyApply);
    assert Get(a, Strengths) == Get(b, Strengths) && Get(a, TeamWork) == Get(b, TeamWork);
    assert Get(a, AdaptQuickly) == Get(b, AdaptQuickly) && Get(a, OfficeWork) == Get(b, OfficeWork);
  }

  /** Setting a field to the value it already has leaves the form as it was; setting twice keeps the last value. */
  lemma SetFieldIdempotent(d: FormData, f: Field, v: string, w: string)
    ensures SetField(d, f, Get(d, f)) == d
    ensures SetField(SetField(d, f, v), f, w) == SetField(d, f, w)
  {
    FieldsDetermineForm(SetField(d, f, Get(d, f)), d);
    FieldsDetermineForm(SetField(SetField(d, f, v), f, w), SetField(d, f, w));
  }

  // ---------------------------------------------------------------------
  // validateForm
  // ---------------------------------------------------------------------

  /** The twelve checks of `validateForm`. */
  datatype Rule =
    | FirstNameGiven | LastNameGiven | EmailGiven | EmailWellFormed | PhoneWellFormed | LinkedInWellFormed
    | WhyApplyGiven | StrengthsGiven | TeamWorkGiven | AdaptQuicklyGiven | CvAttached | CaptchaSolved

  /** The number of checks. */
  const RuleCount: nat := 12

  /** The position of a check in the order `validateForm` runs them. */
  function Rank(rule: Rule): (k: nat)
    ensures k < RuleCount
  {
    match rule
    case FirstNameGiven => 0
    case LastNameGiven => 1
    case EmailGiven => 2
    case EmailWellFormed => 3
    case PhoneWellFormed => 4
    case LinkedInWellFormed => 5
    case WhyApplyGiven => 6
    case StrengthsGiven => 7
    case TeamWorkGiven => 8
    case AdaptQuicklyGiven => 9
    case CvAttached => 10
    case CaptchaSolved => 11
  }

  /** The check run at position `k`. */
  function RuleAt(k: nat): (rule: Rule)
    requires k < RuleCount
    ensures Rank(rule) == k
  {
    match k
    case 0 => FirstNameGiven
    case 1 => LastNameGiven
    case 2 => EmailGiven
    case 3 => EmailWellFormed
    case 4 => PhoneWellFormed
    case 5 => LinkedInWellFormed
    case 6 => WhyApplyGiven
    case 7 => StrengthsGiven
    case 8 => TeamWorkGiven
    case 9 => AdaptQuicklyGiven
    case 10 => CvAttached
    case _ => CaptchaSolved
  }

  /** Ranking is a bijection between the checks and the positions `0 .. RuleCount - 1`. */
  lemma RankIsBijective(rule: Rule, other: Rule)
    ensures RuleAt(Rank(rule)) == rule
    ensures Rank(rule) == Rank(other) ==> rule == other
  {
  }

  /** The message shown when a check fails. */
  function Message(rule: Rule): string {
    match rule
    case FirstNameGiven => "First name is required"
    case LastNameGiven => "Last name is required"
    case EmailGiven => "Email is required"
    case EmailWellFormed => "Invalid email format"
    case PhoneWellFormed => "Invalid phone number format"
    case LinkedInWellFormed => "LinkedIn URL must start with http:// or https://"
    case WhyApplyGiven => "Please answer why you applied"
    case StrengthsGiven => "Please describe your strengths and weaknesses"
    case TeamWorkGiven => "Please share your teamwork experience"
    case AdaptQuicklyGiven => "Please share your adaptation experience"
    case CvAttached => "CV/Resume is required"
    case CaptchaSolved => "Please complete the reCAPTCHA verification"
  }

  /**
   * JavaScript truthiness of the token: `null` and the empty string are
   * both falsy, so either counts as a missing token.
   */
  predicate HasToken(token: Option<string>) {
    token.Some? && token.value != ""
  }

  /** Whether one check passes. Phone and LinkedIn are checked only when non-empty, and neither is trimmed. */
  predicate Holds(rule: Rule, d: FormData, cv: Option<Attachments.FileInfo>, token: Option<string>) {
    match rule
    case FirstNameGiven => !IsBlank(d.firstName)
    case LastNameGiven => !IsBlank(d.lastName)
    case EmailGiven => !IsBlank(d.email)
    case EmailWellFormed => EmailPattern(d.email)
    case PhoneWellFormed => d.phone == "" || PhonePattern(d.phone)
    case LinkedInWellFormed => d.linkedin == "" || StartsWithHttp(d.linkedin)
    case WhyApplyGiven => !IsBlank(d.whyApply)
    case StrengthsGiven => !IsBlank(d.strengths)
    case TeamWorkGiven => !IsBlank(d.teamWork)
    case AdaptQuicklyGiven => !IsBlank(d.adaptQuickly)
    case CvAttached => cv.Some?
    case CaptchaSolved => HasToken(token)
  }

  /**
   * The outcome of every check, in the order they run: position `k` holds
   * the verdict of check `RuleAt(k)`.
   */
  function Verdicts(d: FormData, cv: Option<Attachments.FileInfo>, token: Option<string>): seq<bool> {
    [ Holds(FirstNameGiven, d, cv, token), Holds(LastNameGiven, d, cv, token),
      Holds(EmailGiven, d, cv, token), Holds(EmailWellFormed, d, cv, token),
      Holds(PhoneWellFormed, d, cv, token), Holds(LinkedInWellFormed, d, cv, token),
      Holds(WhyApplyGiven, d, cv, token), Holds(StrengthsGiven, d, cv, token),
      Holds(TeamWorkGiven, d, cv, token), Holds(AdaptQuicklyGiven, d, cv, token),
      Holds(CvAttached, d, cv, token), Holds(CaptchaSolved, d, cv, token) ]
  }

  /** The verdict at a check's rank is that check's outcome. */
  lemma VerdictIsCheck(rule: Rule, d: FormData, cv: Option<Attachments.FileInfo>, token: Option<string>)
    ensures |Verdicts(d, cv, token)| == RuleCount
    ensures Verdicts(d, cv, token)[Rank(rule)] == Holds(rule, d, cv, token)
  {
  }

  /**
   * The fail-fast walk of `validateForm`'s chain of checks from position
   * `i` on: the position of the first failing verdict, or `None` when
   * every remaining one passes.
   */
  function FirstFailureFrom(v: seq<bool>, i: nat): (r: Option<nat>)
    requires i <= |v|
    ensures r == None <==> forall j | i <= j < |v| :: v[j]
    ensures r != None ==> i <= r.value < |v| && !v[r.value] && forall j | i <= j < r.value :: v[j]
    decreases |v| - i
  {
    if i == |v| then None
    else if !v[i] then Some(i)
    else FirstFailureFrom(v, i + 1)
  }

  /** A failing verdict preceded only by passing ones is where the walk stops. */
  lemma WalkStopsAtFirstFailure(v: seq<bool>, i: nat)
    requires i < |v| && !v[i] && forall j | 0 <= j < i :: v[j]
    ensures FirstFailureFrom(v, 0) == Some(i)
  {
  }

  /** Every check ranked before `rule` passes. */
  predicate PassesBefore(rule: Rule, d: FormData, cv: Option<Attachments.FileInfo>, token: Option<string>) {
    forall j | 0 <= j < Rank(rule) :: Verdicts(d, cv, token)[j]
  }

  /** `PassesBefore` in terms of the checks themselves, both ways. */
  lemma PassesBeforeMeansEarlierChecksHold(rule: Rule, d: FormData, cv: Option<Attachments.FileInfo>, token: Option<string>)
    ensures PassesBefore(rule, d, cv, token) <==>
      forall earlier: Rule | Rank(earlier) < Rank(rule) :: Holds(earlier, d, cv, token)
  {
    if PassesBefore(rule, d, cv, token) {
      forall earlier: Rule | Rank(earlier) < Rank(rule)
        ensures Holds(earlier, d, cv, token)
      {
        VerdictIsCheck(earlier, d, cv, token);
      }
    }
    if forall earlier: Rule | Rank(earlier) < Rank(rule) :: Holds(earlier, d, cv, token) {
      forall j | 0 <= j < Rank(rule)
        ensures Verdicts(d, cv, token)[j]
      {
        VerdictIsCheck(RuleAt(j), d, cv, token);
      }
    }
  }

  /**
   * `validateForm`: `None` (the source's `null`) when every check passes,
   * otherwise the message of the first check, in rank order, that fails.
   */
  function ValidateForm(d: FormData, cv: Option<Attachments.FileInfo>, token: Option<string>): Option<string> {
    var v := Verdicts(d, cv, token);
    match FirstFailureFrom(v, 0)
    case None => None
    case Some(i) => Some(Message(RuleAt(i)))
  }

  /** A message returned by `validateForm` always names a check that fails. */
  lemma ReportedMessageNamesFailingCheck(d: FormData, cv: Option<Attachments.FileInfo>, token: Option<string>)
    ensures var r := ValidateForm(d, cv, token);
      r != None ==> RuleOf(r.value) != None && !Holds(RuleOf(r.value).value, d, cv, token)
  {
    var walk := FirstFailureFrom(Verdicts(d, cv, token), 0);
    if walk != None {
      var rule := RuleAt(walk.value);
      VerdictIsCheck(rule, d, cv, token);
      MessageRoundTrip(rule);
    }
  }

  /**
   * A check that fails while every earlier one passes is the one
   * reported, whatever the later checks say.
   */
  lemma ReportsFirstFailingRule(rule: Rule, d: FormData, cv: Option<Attachments.FileInfo>, token: Option<string>)
    requires !Holds(rule, d, cv, token) && PassesBefore(rule, d, cv, token)
    ensures ValidateForm(d, cv, token) == Some(Message(rule))
  {
    VerdictIsCheck(rule, d, cv, token);
    WalkStopsAtFirstFailure(Verdicts(d, cv, token), Rank(rule));
    RankIsBijective(rule, rule);
  }

  /**
   * The report is the first failure: when `validateForm` returns a
   * message, it is that of a failing check all of whose predecessors pass.
   */
  lemma ReportedRuleIsFirstFailure(d: FormData, cv: Option<Attachments.FileInfo>, token: Option<string>)
    ensures ValidateForm(d, cv, token) != None ==> exists rule: Rule ::
      && ValidateForm(d, cv, token) == Some(Message(rule))
      && !Holds(rule, d, cv, token)
      && PassesBefore(rule, d, cv, token)
  {
    var v := Verdicts(d, cv, token);
    VerdictIsCheck(FirstNameGiven, d, cv, token);
    var walk := FirstFailureFrom(v, 0);
    if walk != None {
      var rule := RuleAt(walk.value);
      VerdictIsCheck(rule, d, cv, token);
      assert ValidateForm(d, cv, token) == Some(Message(rule));
      assert PassesBefore(rule, d, cv, token);
    }
  }

  /**
   * The check a message belongs to: the inverse of `Message`
   * (`MessageRoundTrip`). Dispatching on the length first does not change
   * the result; it only spares the verifier comparing a message against
   * all twelve literals.
   */
  function RuleOf(m: string): Option<Rule> {
    var candidates := match |m|
      case 17 => [EmailGiven]
      case 20 => [EmailWellFormed]
      case 21 => [LastNameGiven, CvAttached]
      case 22 => [FirstNameGiven]
      case 27 => [PhoneWellFormed]
      case 29 => [WhyApplyGiven]
      case 37 => [TeamWorkGiven]
      case 39 => [AdaptQuicklyGiven]
      case 42 => [CaptchaSolved]
      case 45 => [StrengthsGiven]
      case 48 => [LinkedInWellFormed]
      case _ => [];
    if |candidates| > 0 && Message(candidates[0]) == m then Some(candidates[0])
    else if |candidates| > 1 && Message(candidates[1]) == m then Some(candidates[1])
    else None
  }

  /** Every message leads back to its check. */
  lemma MessageRoundTrip(rule: Rule)
    ensures RuleOf(Message(rule)) == Some(rule)
  {
    match rule
    case CvAttached => assert Message(rule)[0] == 'C' && "Last name is required"[0] == 'L';
    case _ =>
  }

  /** Different checks report different messages, so the message identifies the failing check. */
  lemma MessagesIdentifyRules(a: Rule, b: Rule)
    requires a != b
    ensures Message(a) != Message(b)
  {
    MessageRoundTrip(a);
    MessageRoundTrip(b);
  }

  /** The eleven checks that read the form and the CV; only the CAPTCHA check reads the token. */
  predicate FieldChecksPass(d: FormData, cv: Option<Attachments.FileInfo>) {
    PassesBefore(CaptchaSolved, d, cv, None)
  }

  /** `validateForm` returns `null` exactly when every check passes. */
  lemma NoneIffEveryCheckHolds(d: FormData, cv: Option<Attachments.FileInfo>, token: Option<string>)
    ensures ValidateForm(d, cv, token) == None <==> forall rule: Rule :: Holds(rule, d, cv, token)
  {
    var v := Verdicts(d, cv, token);
    VerdictIsCheck(FirstNameGiven, d, cv, token);
    if forall rule: Rule :: Holds(rule, d, cv, token) {
      forall j | 0 <= j < |v|
        ensures v[j]
      {
        VerdictIsCheck(RuleAt(j), d, cv, token);
      }
    } else {
      var rule: Rule :| !Holds(rule, d, cv, token);
      VerdictIsCheck(rule, d, cv, token);
    }
  }

  /** `validateForm` returns `null` exactly when the eleven field checks pass and a token is held. */
  lemma NoneIffFieldsAndToken(d: FormData, cv: Option<Attachments.FileInfo>, token: Option<string>)
    ensures ValidateForm(d, cv, token) == None <==> FieldChecksPass(d, cv) && HasToken(token)
  {
    NoneIffEveryCheckHolds(d, cv, token);
    PassesBeforeMeansEarlierChecksHold(CaptchaSolved, d, cv, None);
    forall rule: Rule
      ensures Rank(rule) < Rank(CaptchaSolved) <==> rule != CaptchaSolved
      ensures rule != CaptchaSolved ==> (Holds(rule, d, cv, None) <==> Holds(rule, d, cv, token))
    {
      HoldsIgnoresToken(rule, d, cv, token);
    }
  }

  /** Only the CAPTCHA check reads the token; it is ranked last. */
  lemma HoldsIgnoresToken(rule: Rule, d: FormData, cv: Option<Attachments.FileInfo>, token: Option<string>)
    ensures Rank(rule) < Rank(CaptchaSolved) <==> rule != CaptchaSolved
    ensures rule != CaptchaSolved ==> (Holds(rule, d, cv, None) <==> Holds(rule, d, cv, token))
  {
  }

  /** An application that passes validation has a CV and a non-empty token. */
  lemma ValidHasCvAndToken(d: FormData, cv: Option<Attachments.FileInfo>, token: Option<string>)
    ensures ValidateForm(d, cv, token) == None ==> cv.Some? && HasToken(token)
  {
    VerdictIsCheck(CvAttached, d, cv, token);
    VerdictIsCheck(CaptchaSolved, d, cv, token);
  }

  /**
   * What a submittable application is, stated without `trim` or regular
   * expressions: each required text has a non-whitespace character, the
   * e-mail has the local@domain.tld shape, phone and LinkedIn are empty or
   * well formed, a CV is attached and a non-empty token is held.
   */
  predicate Submittable(d: FormData, cv: Option<Attachments.FileInfo>, token: Option<string>) {
    && !AllWhitespace(d.firstName) && !AllWhitespace(d.lastName)
    && EmailShape(d.email)
    && (d.phone == "" || PhonePattern(d.phone))
    && (d.linkedin == "" || StartsWithHttp(d.linkedin))
    && !AllWhitespace(d.whyApply) && !AllWhitespace(d.strengths)
    && !AllWhitespace(d.teamWork) && !AllWhitespace(d.adaptQuickly)
    && cv.Some? && HasToken(token)
  }

  /** An e-mail of the local@domain.tld shape is never blank. */
  lemma ShapedEmailIsNotBlank(s: string)
    requires EmailShape(s)
    ensures !AllWhitespace(s)
  {
    assert !IsWhitespace(s[IndexOf(s, '@')]);
  }

  /** `validateForm` returns `null` exactly for the submittable applications. */
  lemma ValidIffSubmittable(d: FormData, cv: Option<Attachments.FileInfo>, token: Option<string>)
    ensures ValidateForm(d, cv, token) == None <==> Submittable(d, cv, token)
  {
    NoneIffEveryCheckHolds(d, cv, token);
    BlankIffAllWhitespace(d.firstName);
    BlankIffAllWhitespace(d.lastName);
    BlankIffAllWhitespace(d.email);
    BlankIffAllWhitespace(d.whyApply);
    BlankIffAllWhitespace(d.strengths);
    BlankIffAllWhitespace(d.teamWork);
    BlankIffAllWhitespace(d.adaptQuickly);
    EmailPatternIffShape(d.email);
    if EmailShape(d.email) {
      ShapedEmailIsNotBlank(d.email);
    }
  }

  /** With both names given, an e-mail of only whitespace (or nothing) is reported as missing. */
  lemma BlankEmailIsMissing(d: FormData, cv: Option<Attachments.FileInfo>, token: Option<string>)
    requires !AllWhitespace(d.firstName) && !AllWhitespace(d.lastName)
    requires AllWhitespace(d.email)
    ensures ValidateForm(d, cv, token) == Some("Email is required")
  {
    BlankIffAllWhitespace(d.firstName);
    BlankIffAllWhitespace(d.lastName);
    BlankIffAllWhitespace(d.email);
    ReportsFirstFailingRule(EmailGiven, d, cv, token);
  }

  /**
   * The e-mail is trimmed for the presence check but not for the format
   * check: a non-blank e-mail containing whitespace anywhere, a leading or
   * trailing space included, is reported as malformed.
   */
  lemma PaddedEmailIsMalformed(d: FormData, cv: Option<Attachments.FileInfo>, token: Option<string>, k: nat)
    requires !AllWhitespace(d.firstName) && !AllWhitespace(d.lastName)
    requires !AllWhitespace(d.email) && k < |d.email| && IsWhitespace(d.email[k])
    ensures ValidateForm(d, cv, token) == Some("Invalid email format")
  {
    BlankIffAllWhitespace(d.firstName);
    BlankIffAllWhitespace(d.lastName);
    BlankIffAllWhitespace(d.email);
    EmailRejectsWhitespace(d.email, k);
    ReportsFirstFailingRule(EmailWellFormed, d, cv, token);
  }

  /** An empty phone number is never the reported problem, whatever the other fields hold. */
  lemma EmptyPhonePasses(d: FormData, cv: Option<Attachments.FileInfo>, token: Option<string>)
    requires d.phone == ""
    ensures ValidateForm(d, cv, token) != Some(Message(PhoneWellFormed))
  {
    ReportedMessageNamesFailingCheck(d, cv, token);
    MessageRoundTrip(PhoneWellFormed);
  }

  /** An empty LinkedIn value is never the reported problem, whatever the other fields hold. */
  lemma EmptyLinkedInPasses(d: FormData, cv: Option<Attachments.FileInfo>, token: Option<string>)
    requires d.linkedin == ""
    ensures ValidateForm(d, cv, token) != Some(Message(LinkedInWellFormed))
  {
    ReportedMessageNamesFailingCheck(d, cv, token);
    MessageRoundTrip(LinkedInWellFormed);
  }

  /**
   * LinkedIn is not trimmed: once every earlier check passes, a value
   * with leading whitespace is reported, as is any non-empty value not
   * starting with "http".
   */
  lemma LinkedInMustStartWithHttp(d: FormData, cv: Option<Attachments.FileInfo>, token: Option<string>)
    requires PassesBefore(LinkedInWellFormed, d, cv, token)
    requires d.linkedin != "" && (IsWhitespace(d.linkedin[0]) || !StartsWithHttp(d.linkedin))
    ensures ValidateForm(d, cv, token) == Some("LinkedIn URL must start with http:// or https://")
  {
    ReportsFirstFailingRule(LinkedInWellFormed, d, cv, token);
  }

  /** An empty or blank "why apply" answer, with every earlier check passing, is reported as such. */
  lemma MissingWhyApplyReported(d: FormData, cv: Option<Attachments.FileInfo>, token: Option<string>)
    requires AllWhitespace(d.whyApply)
    requires PassesBefore(WhyApplyGiven, d, cv, token)
    ensures ValidateForm(d, cv, token) == Some("Please answer why you applied")
  {
    BlankIffAllWhitespace(d.whyApply);
    ReportsFirstFailingRule(WhyApplyGiven, d, cv, token);
  }
}

=== FILE: optional.dfy ===
/** The JavaScript `null`-or-value convention of the portal, as a datatype. */
module Optional {

  /** `None` stands for `null` / `undefined`; `Some(v)` for a present value. */
  datatype Option<+T> = None | Some(value: T)
}

=== FILE: patterns.dfy ===
/**
 * The three string patterns the application form checks: the e-mail
 * regular expression `^[^\s@]+@[^\s@]+\.[^\s@]+$`, the phone regular
 * expression `^[\d\s+()-]+$`, and the LinkedIn `startsWith('http')` test.
 */
module Patterns {
  import opened Text

  /** The class `[^\s@]`: neither whitespace nor an at-sign. */
  predicate EmailChar(c: char) {
    c != '@' && !IsWhitespace(c)
  }

  /** The regular-expression piece `[^\s@]+`: one or more `EmailChar`s. */
  predicate EmailRun(t: string) {
    |t| > 0 && forall k | 0 <= k < |t| :: EmailChar(t[k])
  }

  /**
   * `s` splits at positions `at` and `dot` as run `@` run `.` run, each
   * run matching `[^\s@]+`.
   */
  predicate EmailSplit(s: string, at: int, dot: int) {
    && 0 <= at < dot < |s|
    && s[at] == '@' && s[dot] == '.'
    && EmailRun(s[..at]) && EmailRun(s[at + 1..dot]) && EmailRun(s[dot + 1..])
  }

  /**
   * The e-mail regular expression read literally: anchored at both ends,
   * `s` splits somewhere as run `@` run `.` run.
   */
  predicate EmailPattern(s: string) {
    exists at, dot | 0 <= at < |s| && 0 <= dot < |s| :: EmailSplit(s, at, dot)
  }

  /** Number of occurrences of `c` in `s`. */
  function Count(s: string, c: char): (n: nat)
    ensures n <= |s|
    ensures n == 0 <==> c !in s
  {
    if s == [] then 0 else (if s[0] == c then 1 else 0) + Count(s[1..], c)
  }

  /** Position of the first occurrence of `c` in `s`. */
  function IndexOf(s: string, c: char): (i: nat)
    requires c in s
    ensures i < |s| && s[i] == c && c !in s[..i]
  {
    if s[0] == c then 0 else
      var j := IndexOf(s[1..], c);
      assert s[1..][..j] == s[1..j + 1];
      1 + j
  }

  lemma {:induction false} CountAppend(a: string, b: string, c: char)
    ensures Count(a + b, c) == Count(a, c) + Count(b, c)
  {
    if a != [] {
      assert (a + b)[1..] == a[1..] + b;
      CountAppend(a[1..], b, c);
    } else {
      assert a + b == b;
    }
  }

  /**
   * The regular expression's meaning stated without it: no whitespace
   * anywhere, exactly one `@`, something before it, and a `.` in the
   * domain part that is neither the domain's first nor its last character.
   */
  predicate EmailShape(s: string) {
    && NoWhitespace(s)
    && Count(s, '@') == 1
    && var at := IndexOf(s, '@');
       var domain := s[at + 1..];
       && at > 0
       && |domain| >= 3
       && '.' in domain[1..|domain| - 1]
  }

  /** Splitting `s` around a position holding `c`. */
  lemma CountAround(s: string, i: nat, c: char)
    requires i < |s| && s[i] == c
    ensures Count(s, c) == Count(s[..i], c) + 1 + Count(s[i + 1..], c)
  {
    assert s == s[..i] + ([s[i]] + s[i + 1..]);
    CountAppend(s[..i], [s[i]] + s[i + 1..], c);
    CountAppend([s[i]], s[i + 1..], c);
  }

  /** A slice is a `[^\s@]+` run iff it is non-empty and each of its characters is an `EmailChar`. */
  lemma RunSlice(s: string, lo: nat, hi: nat)
    requires lo <= hi <= |s|
    ensures EmailRun(s[lo..hi]) <==> lo < hi && forall k | lo <= k < hi :: EmailChar(s[k])
  {
    var t := s[lo..hi];
    assert forall k | lo <= k < hi :: s[k] == t[k - lo];
  }

  /** The single `@` of a string is the one `IndexOf` finds, and the count of `@` is one. */
  lemma SoleAt(s: string, at: nat)
    requires at < |s| && s[at] == '@'
    requires forall k | 0 <= k < |s| && k != at :: s[k] != '@'
    ensures Count(s, '@') == 1 && IndexOf(s, '@') == at
  {
    CountAround(s, at, '@');
    var pre, post := s[..at], s[at + 1..];
    assert '@' !in pre by { assert forall k | 0 <= k < at :: pre[k] == s[k]; }
    assert '@' !in post by { assert forall k | 0 <= k < |post| :: post[k] == s[at + 1 + k]; }
  }

  /** The three runs of a match contain every character except the `@`. */
  lemma RunsCoverAllButAt(s: string, at: nat, dot: nat)
    requires at < dot < |s|
    requires EmailRun(s[..at]) && EmailRun(s[at + 1..dot]) && EmailRun(s[dot + 1..])
    ensures 0 < at && at + 1 < dot && dot + 1 < |s|
    ensures forall k | 0 <= k < |s| && k != at && k != dot :: EmailChar(s[k])
  {
    RunSlice(s, 0, at);
    RunSlice(s, at + 1, dot);
    RunSlice(s, dot + 1, |s|);
  }

  /** A sole `@` that is not first, with a `.` at least two places later and not last, gives the shape. */
  lemma ShapeFromPositions(s: string, at: nat, dot: nat)
    requires 0 < at && at + 1 < dot && dot + 1 < |s| && s[at] == '@' && s[dot] == '.'
    requires forall k | 0 <= k < |s| && k != at :: EmailChar(s[k])
    ensures EmailShape(s)
  {
    SoleAt(s, at);
    var post := s[at + 1..];
    var mid := post[1..|post| - 1];
    assert mid[dot - at - 2] == '.';
  }

  /** Matching the pattern forces the structural description. */
  lemma PatternGivesShape(s: string)
    requires EmailPattern(s)
    ensures EmailShape(s)
  {
    var at: nat, dot: nat :| at < |s| && dot < |s| && EmailSplit(s, at, dot);
    RunsCoverAllButAt(s, at, dot);
    ShapeFromPositions(s, at, dot);
  }

  /** The structural description forces a match of the pattern. */
  lemma ShapeGivesPattern(s: string)
    requires EmailShape(s)
    ensures EmailPattern(s)
  {
    var at := IndexOf(s, '@');
    var post := s[at + 1..];
    CountAround(s, at, '@');
    assert '@' !in post;
    assert forall k | at < k < |s| :: s[k] != '@' by {
      assert forall k | at < k < |s| :: s[k] == post[k - at - 1];
    }
    var pre := s[..at];
    assert forall k | 0 <= k < at :: s[k] != '@' by {
      assert forall k | 0 <= k < at :: s[k] == pre[k];
    }
    var mid := post[1..|post| - 1];
    var j :| 0 <= j < |mid| && mid[j] == '.';
    var dot := at + 2 + j;
    assert s[dot] == '.';
    RunSlice(s, 0, at);
    RunSlice(s, at + 1, dot);
    RunSlice(s, dot + 1, |s|);
    assert EmailSplit(s, at, dot);
  }

  /** The literal reading of the e-mail regular expression and its structural description agree on every string. */
  lemma EmailPatternIffShape(s: string)
    ensures EmailPattern(s) <==> EmailShape(s)
  {
    if EmailPattern(s) { PatternGivesShape(s); }
    if EmailShape(s) { ShapeGivesPattern(s); }
  }

  /** A string with whitespace at either end, or anywhere, never matches the e-mail pattern. */
  lemma EmailRejectsWhitespace(s: string, k: nat)
    requires k < |s| && IsWhitespace(s[k])
    ensures !EmailPattern(s)
  {
    EmailPatternIffShape(s);
  }

  /** The class `[\d\s+()-]`. */
  predicate PhoneChar(c: char) {
    IsDigit(c) || IsWhitespace(c) || c == '+' || c == '(' || c == ')' || c == '-'
  }

  /** The phone regular expression: one or more `PhoneChar`s, anchored at both ends. */
  predicate PhonePattern(s: string) {
    |s| > 0 && forall k | 0 <= k < |s| :: PhoneChar(s[k])
  }

  /** `String.prototype.startsWith('http')`. */
  predicate StartsWithHttp(s: string) {
    |s| >= 4 && s[..4] == "http"
  }
}

=== FILE: portal.dfy ===
/**
 * The career portal component as a state machine: its state, every event
 * handler as one sequential transition, the render precedence that picks
 * the screen, and the invariants the transitions keep.
 */
module Portal {
  import opened Optional
  import opened Text
  import opened Form
  import opened Attachments
  import opened Submission

  /** The id `grecaptcha.render` returns for a rendered widget. */
  type WidgetId = nat

  /**
   * The component's state: its React state variables plus the widget-id
   * ref. `captchaLoaded` is `recaptchaLoaded`; `widget` is the ref
   * `recaptchaWidgetId`, `None` standing for `null`.
   */
  datatype State = State(
    selectedJob: Option<Job>,
    form: FormData,
    cv: Option<FileInfo>,
    video: Option<FileInfo>,
    submitting: bool,
    submitted: bool,
    error: Option<string>,
    token: Option<string>,
    captchaLoaded: bool,
    widget: Option<WidgetId>)

  /** The state at mount: no job, an initial form, nothing attached, no widget. */
  const Start := State(None, Initial, None, None, false, false, None, None, false, None)

  /** The screen the component renders. */
  datatype View = SubmittingView | SubmittedView | DetailView(job: Job) | ListingView

  /** Render precedence: `submitting`, then `submitted`, then a selected job, then the listing. */
  function ViewOf(s: State): (v: View)
    ensures v.DetailView? ==> s.selectedJob == Some(v.job)
  {
    if s.submitting then SubmittingView
    else if s.submitted then SubmittedView
    else if s.selectedJob.Some? then DetailView(s.selectedJob.value)
    else ListingView
  }

  /** The attachment slot of one kind. */
  function Slot(s: State, kind: FileKind): Option<FileInfo> {
    if kind == Cv then s.cv else s.video
  }

  /** The other slot. */
  function Other(kind: FileKind): FileKind {
    if kind == Cv then Video else Cv
  }

  /** What `resetForm` clears: the form, both files, the error and the token are at their initial values. */
  predicate Pristine(s: State) {
    s.form == Initial && s.cv == None && s.video == None && s.error == None && s.token == None
  }

  /** The navigation and widget state two states share. */
  predicate SameFlags(a: State, b: State) {
    && a.selectedJob == b.selectedJob && a.submitting == b.submitting && a.submitted == b.submitted
    && a.captchaLoaded == b.captchaLoaded && a.widget == b.widget
  }

  // ---------------------------------------------------------------------
  // Form-state transitions
  // ---------------------------------------------------------------------

  /**
   * `resetForm`: back to the initial form with no files, error or token.
   * The widget reset it asks `grecaptcha` for changes no state here, and
   * the widget id is kept.
   */
  function ResetForm(s: State): (r: State)
    ensures Pristine(r) && SameFlags(r, s)
  {
    s.(form := Initial, cv := None, video := None, error := None, token := None)
  }

  /** `handleInputChange`: one field takes the typed value; nothing else changes. */
  function InputChanged(s: State, f: Field, v: string): (r: State)
    ensures Get(r.form, f) == v
    ensures forall g: Field | g != f :: Get(r.form, g) == Get(s.form, g)
    ensures r.(form := s.form) == s
  {
    s.(form := SetField(s.form, f, v))
  }

  /**
   * `handleFileChange`: a cancelled chooser changes nothing; a rejected
   * file only sets the error, keeping whatever was attached before; an
   * accepted file fills its own slot and clears the error.
   */
  function FileChanged(s: State, kind: FileKind, chosen: Option<FileInfo>): (r: State)
    ensures chosen == None ==> r == s
    ensures chosen != None && !Acceptable(chosen.value, kind) ==>
      && r.error == ValidateFile(chosen, kind) && r.error != None
      && r.cv == s.cv && r.video == s.video && r.(error := s.error) == s
    ensures chosen != None && Acceptable(chosen.value, kind) ==>
      && Slot(r, kind) == chosen && Slot(r, Other(kind)) == Slot(s, Other(kind))
      && r.error == None && r.form == s.form && r.token == s.token && SameFlags(r, s)
  {
    if chosen.None? then s
    else
      var verdict := ValidateFile(chosen, kind);
      if verdict.Some? then s.(error := verdict)
      else if kind == Cv then s.(cv := chosen, error := None)
      else s.(video := chosen, error := None)
  }

  /** `removeFile`: empties one slot; the other slot, the error and everything else stay. */
  function FileRemoved(s: State, kind: FileKind): (r: State)
    ensures Slot(r, kind) == None && Slot(r, Other(kind)) == Slot(s, Other(kind))
    ensures r.form == s.form && r.error == s.error && r.token == s.token && SameFlags(r, s)
  {
    if kind == Cv then s.(cv := None) else s.(video := None)
  }

  const ExpiredMessage := "reCAPTCHA expired. Please verify again."
  const CaptchaErrorMessage := "reCAPTCHA error. Please refresh the page and try again."

  /** The widget's success callback: the token is stored and the error cleared. */
  function CaptchaVerified(s: State, token: string): (r: State)
    ensures r.token == Some(token) && r.error == None
    ensures r.(token := s.token, error := s.error) == s
  {
    s.(token := Some(token), error := None)
  }

  /** The widget's expiry callback: the token is dropped and the user told to verify again. */
  function CaptchaExpired(s: State): (r: State)
    ensures r.token == None && r.error == Some(ExpiredMessage)
    ensures r.(token := s.token, error := s.error) == s
  {
    s.(token := None, error := Some(ExpiredMessage))
  }

  /** The widget's error callback: the token is dropped and the user told to refresh. */
  function CaptchaFailed(s: State): (r: State)
    ensures r.token == None && r.error == Some(CaptchaErrorMessage)
    ensures r.(token := s.token, error := s.error) == s
  {
    s.(token := None, error := Some(CaptchaErrorMessage))
  }

  /** The script finished loading (or was already present at mount). */
  function CaptchaReady(s: State): (r: State)
    ensures r.captchaLoaded && r.(captchaLoaded := s.captchaLoaded) == s
  {
    s.(captchaLoaded := true)
  }

  /**
   * The render effect: a widget is rendered, and its id stored, only when
   * the script is loaded, a job is selected and no widget id is held yet.
   */
  function WidgetRendered(s: State, id: WidgetId): (r: State)
    ensures r.widget == (if s.captchaLoaded && s.selectedJob.Some? && s.widget == None then Some(id) else s.widget)
    ensures r.(widget := s.widget) == s
  {
    if s.captchaLoaded && s.selectedJob.Some? && s.widget.None? then s.(widget := Some(id)) else s
  }

  // ---------------------------------------------------------------------
  // Submission and navigation
  // ---------------------------------------------------------------------

  /** The validation `handleSubmit` runs on the current state. */
  function Validation(s: State): Option<string> {
    ValidateForm(s.form, s.cv, s.token)
  }

  /**
   * The synchronous half of `handleSubmit`. An invalid form gets the
   * validator's message and nothing is sent; a valid one clears the error,
   * goes in flight and sends the payload built from the current state.
   */
  function BeginSubmit(s: State, submittedAt: string): (res: (State, Option<seq<Part>>))
    requires s.selectedJob.Some?
    ensures Validation(s) != None ==> res.1 == None && res.0 == s.(error := Validation(s))
    ensures Validation(s) == None ==>
      && s.cv.Some? && HasToken(s.token)
      && res.1 == Some(BuildPayload(s.form, s.selectedJob.value, submittedAt, s.cv.value, s.video, s.token.value))
      && res.0 == s.(submitting := true, error := None)
  {
    var verdict := Validation(s);
    if verdict.Some? then (s.(error := verdict), None)
    else
      ValidHasCvAndToken(s.form, s.cv, s.token);
      var payload := BuildPayload(s.form, s.selectedJob.value, submittedAt, s.cv.value, s.video, s.token.value);
      (s.(submitting := true, error := None), Some(payload))
  }

  /**
   * The asynchronous half of `handleSubmit`, run when the request settles.
   * Success resets the form and shows the confirmation; failure keeps
   * every entry, shows the failure message, and drops the token only when
   * a widget id is held (the widget is then reset too). Either way the
   * request is no longer in flight and the script stays loaded.
   */
  function FinishSubmit(s: State, outcome: Outcome): (r: State)
    ensures !r.submitting
    ensures r.captchaLoaded == s.captchaLoaded
    ensures outcome.Delivered? ==>
      Pristine(r) && r.submitted && r.selectedJob == s.selectedJob && r.widget == s.widget
    ensures !outcome.Delivered? ==>
      && r.error == Some(FailureMessage(outcome))
      && r.token == (if s.widget.Some? then None else s.token)
      && r.form == s.form && r.cv == s.cv && r.video == s.video
      && r.submitted == s.submitted && r.selectedJob == s.selectedJob && r.widget == s.widget
  {
    if outcome.Delivered? then ResetForm(s).(submitted := true, submitting := false)
    else
      var failed := s.(error := Some(FailureMessage(outcome)));
      var cleared := if s.widget.Some? then failed.(token := None) else failed;
      cleared.(submitting := false)
  }

  /** `handleBackToJobs`: leave the job, reset the form and forget the widget id. */
  function BackToJobs(s: State): (r: State)
    ensures r.selectedJob == None && r.widget == None && Pristine(r)
    ensures r.submitting == s.submitting && r.submitted == s.submitted && r.captchaLoaded == s.captchaLoaded
  {
    ResetForm(s).(selectedJob := None, widget := None)
  }

  /** "View More Positions": leave the confirmation and the job. The form is not reset and the widget id is kept. */
  function ViewMorePositions(s: State): (r: State)
    ensures !r.submitted && r.selectedJob == None
    ensures r.(submitted := s.submitted, selectedJob := s.selectedJob) == s
  {
    s.(submitted := false, selectedJob := None)
  }

  /** Clicking a job card: the job becomes the selected one; the form is not reset. */
  function SelectJob(s: State, job: Job): (r: State)
    ensures r.selectedJob == Some(job) && r.(selectedJob := s.selectedJob) == s
  {
    s.(selectedJob := Some(job))
  }

  // ---------------------------------------------------------------------
  // Events
  // ---------------------------------------------------------------------

  /** Everything that can happen to the component. */
  datatype Event =
    | ClickJob(job: Job)
    | EditField(field: Field, value: string)
    | ChooseFile(kind: FileKind, chosen: Option<FileInfo>)
    | RemoveFile(kind: FileKind)
    | PressSubmit(submittedAt: string)
    | RequestSettled(outcome: Outcome)
    | PressBack
    | PressViewMore
    | ScriptLoaded
    | RenderWidget(id: WidgetId)
    | Verified(token: string)
    | Expired
    | WidgetError

  /**
   * Whether an event can happen in a state: a control can be used only
   * while the screen showing it is rendered, a request settles only while
   * one is in flight, and the widget's callbacks may fire at any time.
   */
  predicate Enabled(s: State, e: Event) {
    match e
    case ClickJob(_) => ViewOf(s).ListingView?
    case EditField(_, _) => ViewOf(s).DetailView?
    case ChooseFile(_, _) => ViewOf(s).DetailView?
    case RemoveFile(_) => ViewOf(s).DetailView?
    case PressSubmit(_) => ViewOf(s).DetailView?
    case PressBack => ViewOf(s).DetailView?
    case RenderWidget(_) => ViewOf(s).DetailView?
    case PressViewMore => ViewOf(s).SubmittedView?
    case RequestSettled(_) => s.submitting
    case ScriptLoaded => true
    case Verified(_) => true
    case Expired => true
    case WidgetError => true
  }

  /**
   * One event: the next state and the payload sent, if any. A disabled
   * event changes nothing, and a payload is sent exactly by a valid submit
   * from the job page. Which handler an enabled event runs is stated by
   * `StepRunsHandler`.
   */
  function Step(s: State, e: Event): (res: (State, Option<seq<Part>>))
    ensures !Enabled(s, e) ==> res == (s, None)
    ensures res.1 != None <==> e.PressSubmit? && ViewOf(s).DetailView? && Validation(s) == None
  {
    if !Enabled(s, e) then (s, None)
    else match e
      case ClickJob(job) => (SelectJob(s, job), None)
      case EditField(f, v) => (InputChanged(s, f, v), None)
      case ChooseFile(kind, chosen) => (FileChanged(s, kind, chosen), None)
      case RemoveFile(kind) => (FileRemoved(s, kind), None)
      case PressSubmit(at) => BeginSubmit(s, at)
      case RequestSettled(outcome) => (FinishSubmit(s, outcome), None)
      case PressBack => (BackToJobs(s), None)
      case PressViewMore => (ViewMorePositions(s), None)
      case ScriptLoaded => (CaptchaReady(s), None)
      case RenderWidget(id) => (WidgetRendered(s, id), None)
      case Verified(token) => (CaptchaVerified(s, token), None)
      case Expired => (CaptchaExpired(s), None)
      case WidgetError => (CaptchaFailed(s), None)
  }

  /** An enabled event runs the handler its control or callback is wired to. */
  lemma StepRunsHandler(s: State, e: Event)
    ensures Enabled(s, e) && e.ClickJob? ==> Step(s, e) == (SelectJob(s, e.job), None)
    ensures Enabled(s, e) && e.EditField? ==> Step(s, e) == (InputChanged(s, e.field, e.value), None)
    ensures Enabled(s, e) && e.ChooseFile? ==> Step(s, e) == (FileChanged(s, e.kind, e.chosen), None)
    ensures Enabled(s, e) && e.RemoveFile? ==> Step(s, e) == (FileRemoved(s, e.kind), None)
    ensures Enabled(s, e) && e.PressSubmit? ==> s.selectedJob.Some? && Step(s, e) == BeginSubmit(s, e.submittedAt)
    ensures Enabled(s, e) && e.RequestSettled? ==> Step(s, e) == (FinishSubmit(s, e.outcome), None)
    ensures Enabled(s, e) && e.PressBack? ==> Step(s, e) == (BackToJobs(s), None)
    ensures Enabled(s, e) && e.PressViewMore? ==> Step(s, e) == (ViewMorePositions(s), None)
    ensures e.ScriptLoaded? ==> Step(s, e) == (CaptchaReady(s), None)
    ensures Enabled(s, e) && e.RenderWidget? ==> Step(s, e) == (WidgetRendered(s, e.id), None)
    ensures e.Verified? ==> Step(s, e) == (CaptchaVerified(s, e.token), None)
    ensures e.Expired? ==> Step(s, e) == (CaptchaExpired(s), None)
    ensures e.WidgetError? ==> Step(s, e) == (CaptchaFailed(s), None)
  {
  }

  /** The state after a sequence of events. */
  function Run(s: State, events: seq<Event>): State
    decreases |events|
  {
    if events == [] then s else Run(Step(s, events[0]).0, events[1..])
  }

  // ---------------------------------------------------------------------
  // handleSubmit as a whole
  // ---------------------------------------------------------------------

  /**
   * `handleSubmit` from the job's page, with the request's outcome given:
   * the state once everything has settled and the payload sent, if any.
   */
  function Submit(s: State, submittedAt: string, outcome: Outcome): (res: (State, Option<seq<Part>>))
    requires ViewOf(s).DetailView?
    ensures Validation(s) != None ==>
      && res.1 == None && res.0 == s.(error := Validation(s))
      && ViewOf(res.0) == ViewOf(s)
    ensures Validation(s) == None ==> res.1 != None && !res.0.submitting
    ensures res.0.captchaLoaded == s.captchaLoaded
    ensures Validation(s) == None && outcome.Delivered? ==>
      Pristine(res.0) && ViewOf(res.0) == SubmittedView && res.0.widget == s.widget
    ensures Validation(s) == None && !outcome.Delivered? ==>
      && ViewOf(res.0) == ViewOf(s)
      && res.0.error == Some(FailureMessage(outcome))
      && res.0.form == s.form && res.0.cv == s.cv && res.0.video == s.video
      && res.0.widget == s.widget
      && (res.0.token == None <==> s.widget.Some? || s.token == None)
  {
    var (inFlight, sent) := BeginSubmit(s, submittedAt);
    if sent.None? then (inFlight, None) else (FinishSubmit(inFlight, outcome), sent)
  }

  /**
   * Pressing submit and then letting the request settle, as two events,
   * is the whole submission `Submit` describes; an invalid form stops
   * after the first event.
   */
  lemma SubmitThroughEvents(s: State, at: string, outcome: Outcome)
    requires ViewOf(s).DetailView?
    ensures Step(s, PressSubmit(at)).1 == Submit(s, at, outcome).1
    ensures Validation(s) != None ==> Run(s, [PressSubmit(at)]) == Submit(s, at, outcome).0
    ensures Validation(s) == None ==> Run(s, [PressSubmit(at), RequestSettled(outcome)]) == Submit(s, at, outcome).0
  {
    var s1 := Step(s, PressSubmit(at)).0;
    assert Run(s, [PressSubmit(at)]) == Run(s1, []);
    assert Run(s, [PressSubmit(at), RequestSettled(outcome)]) == Run(s1, [RequestSettled(outcome)]);
    assert Run(s1, [RequestSettled(outcome)]) == Run(Step(s1, RequestSettled(outcome)).0, []);
  }

  // ---------------------------------------------------------------------
  // Invariants of reachable states
  // ---------------------------------------------------------------------

  /** Every check but the CAPTCHA one passes (the token may still change while a request is in flight). */
  predicate FieldsValid(s: State) {
    FieldChecksPass(s.form, s.cv)
  }

  /**
   * What holds in every reachable state: an in-flight request belongs to a
   * selected job, to an application whose fields were valid and to no
   * finished submission; the confirmation screen follows a reset form;
   * and a widget exists only once the script has loaded.
   */
  predicate Inv(s: State) {
    && (s.submitting ==> s.selectedJob.Some? && !s.submitted && FieldsValid(s))
    && (s.submitted ==> s.selectedJob.Some? && s.form == Initial && s.cv == None && s.video == None)
    && (s.widget.Some? ==> s.captchaLoaded)
  }

  lemma StartSatisfiesInv()
    ensures Inv(Start) && ViewOf(Start) == ListingView
  {
  }

  /** Every event keeps the invariant. */
  lemma StepPreservesInv(s: State, e: Event)
    requires Inv(s)
    ensures Inv(Step(s, e).0)
  {
    var r := Step(s, e).0;
    if Enabled(s, e) {
      match e
      case PressSubmit(at) =>
        NoneIffFieldsAndToken(s.form, s.cv, s.token);
      case _ =>
    }
  }

  /** Every state reached from a state satisfying the invariant satisfies it. */
  lemma {:induction false} RunPreservesInv(s: State, events: seq<Event>)
    requires Inv(s)
    ensures Inv(Run(s, events))
    decreases |events|
  {
    if events != [] {
      StepPreservesInv(s, events[0]);
      RunPreservesInv(Step(s, events[0]).0, events[1..]);
    }
  }

  /**
   * In a reachable state the four flags-and-job combinations the screens
   * need are the only ones that occur: the screen shown determines
   * `submitting`, `submitted` and whether a job is selected.
   */
  lemma ViewDeterminesFlags(s: State)
    requires Inv(s)
    ensures ViewOf(s) == SubmittingView <==> s.submitting
    ensures ViewOf(s) == SubmittedView <==> s.submitted
    ensures ViewOf(s) == ListingView <==> s.selectedJob == None
    ensures !(s.submitting && s.submitted)
  {
  }

  /** At most one request in flight: while one is, no event sends another. */
  lemma NoSecondRequestInFlight(s: State, e: Event)
    requires s.submitting
    ensures Step(s, e).1 == None
    ensures Step(s, PressSubmit(if e.PressSubmit? then e.submittedAt else "")) == (s, None)
  {
  }

  /** A request is sent only from the job's page and only for an application that passes validation. */
  lemma OnlyValidApplicationsAreSent(s: State, e: Event)
    requires Step(s, e).1 != None
    ensures ViewOf(s).DetailView? && Validation(s) == None
    ensures s.cv.Some? && HasToken(s.token)
  {
    ValidIffSubmittable(s.form, s.cv, s.token);
  }

  // ---------------------------------------------------------------------
  // Navigation
  // ---------------------------------------------------------------------

  /** Opening a job and going straight back leaves the listing with a pristine form and no widget. */
  lemma SelectThenBackRestoresForm(s: State, job: Job)
    requires Inv(s) && ViewOf(s) == ListingView
    ensures var r := Run(s, [ClickJob(job), PressBack]);
      Pristine(r) && ViewOf(r) == ListingView && r.widget == None
  {
    var s1 := Step(s, ClickJob(job)).0;
    assert ViewOf(s1) == DetailView(job);
    assert Run(s, [ClickJob(job), PressBack]) == Run(s1, [PressBack]);
    assert Run(s1, [PressBack]) == Run(BackToJobs(s1), []);
  }

  /**
   * After a successful submission, "View More Positions" and picking a job
   * again, the old widget id is still held, so the render effect does not
   * render a new widget and the token stays empty: until a verification
   * callback arrives, the form is refused at the CAPTCHA check.
   */
  lemma WidgetNotRenderedAgainAfterViewMore(s: State, job: Job, id: WidgetId)
    requires Inv(s) && ViewOf(s) == SubmittedView && Pristine(s) && s.widget.Some?
    ensures var r := Run(s, [PressViewMore, ClickJob(job), RenderWidget(id)]);
      && ViewOf(r) == DetailView(job)
      && r.widget == s.widget
      && r.token == None
      && !HasToken(r.token)
  {
    var s1 := Step(s, PressViewMore).0;
    var s2 := Step(s1, ClickJob(job)).0;
    var s3 := Step(s2, RenderWidget(id)).0;
    assert ViewOf(s2) == DetailView(job);
    assert Run(s, [PressViewMore, ClickJob(job), RenderWidget(id)]) == Run(s1, [ClickJob(job), RenderWidget(id)]);
    assert Run(s1, [ClickJob(job), RenderWidget(id)]) == Run(s2, [RenderWidget(id)]);
    assert Run(s2, [RenderWidget(id)]) == Run(s3, []);
  }

  /** Going back through "Back to all positions" instead forgets the widget id, so the next job's page renders a new widget. */
  lemma WidgetRenderedAgainAfterBack(s: State, job: Job, id: WidgetId)
    requires Inv(s) && ViewOf(s).DetailView? && s.captchaLoaded
    ensures var r := Run(s, [PressBack, ClickJob(job), RenderWidget(id)]);
      ViewOf(r) == DetailView(job) && r.widget == Some(id)
  {
    var s1 := Step(s, PressBack).0;
    var s2 := Step(s1, ClickJob(job)).0;
    var s3 := Step(s2, RenderWidget(id)).0;
    assert ViewOf(s1) == ListingView;
    assert ViewOf(s2) == DetailView(job);
    assert Run(s, [PressBack, ClickJob(job), RenderWidget(id)]) == Run(s1, [ClickJob(job), RenderWidget(id)]);
    assert Run(s1, [ClickJob(job), RenderWidget(id)]) == Run(s2, [RenderWidget(id)]);
    assert Run(s2, [RenderWidget(id)]) == Run(s3, []);
  }

  /** "View More Positions" returns to the listing from the confirmation. */
  lemma ViewMoreReturnsToListing(s: State)
    requires Inv(s) && ViewOf(s) == SubmittedView
    ensures ViewOf(Step(s, PressViewMore).0) == ListingView
  {
  }

  // ---------------------------------------------------------------------
  // End-to-end scenarios
  // ---------------------------------------------------------------------

  /**
   * A rejected request whose body says "Duplicate application": the page
   * stays on the job, shows exactly that text, keeps every entry and,
   * with a widget present, drops the token.
   */
  lemma DuplicateApplicationScenario(s: State, submittedAt: string)
    requires ViewOf(s).DetailView? && Validation(s) == None && s.widget.Some?
    ensures var (r, sent) := Submit(s, submittedAt, Rejected(Some("Duplicate application")));
      && sent != None
      && ViewOf(r) == ViewOf(s)
      && r.error == Some("Duplicate application")
      && r.token == None
      && r.form == s.form && r.cv == s.cv && r.video == s.video
  {
  }

  /** An empty "why apply" answer with everything before it valid: that message, and nothing is sent. */
  lemma MissingWhyApplyScenario(s: State, submittedAt: string, outcome: Outcome)
    requires ViewOf(s).DetailView? && s.form.whyApply == ""
    requires PassesBefore(WhyApplyGiven, s.form, s.cv, s.token)
    ensures Submit(s, submittedAt, outcome).1 == None
    ensures Submit(s, submittedAt, outcome).0.error == Some("Please answer why you applied")
    ensures !Submit(s, submittedAt, outcome).0.submitting
  {
    MissingWhyApplyReported(s.form, s.cv, s.token);
  }
}

=== FILE: submission.dfy ===
/**
 * What `handleSubmit` sends and what it makes of the answer: the ordered
 * multipart payload, and the error text shown when the request fails.
 */
module Submission {
  import opened Optional
  import opened Form
  import opened Attachments

  /**
   * A job posting, as far as the application flow reads it. `kind` is the
   * posting's `type` ("Full-time", "Internship", ...).
   */
  datatype Job = Job(
    title: string, department: string, location: string, kind: string,
    description: string, responsibilities: seq<string>, requirements: seq<string>)

  /**
   * The value of one multipart part: plain text, the JSON text of a list
   * of strings (`JSON.stringify` is not modelled, only which list it
   * encodes), or an uploaded file.
   */
  datatype PartValue = Text(text: string) | JsonList(items: seq<string>) | Binary(file: FileInfo)

  /** One `formDataToSend.append(name, value)`. */
  datatype Part = Part(name: string, value: PartValue)

  /** The part names, in order. */
  function Names(p: seq<Part>): seq<string> {
    seq(|p|, i requires 0 <= i < |p| => p[i].name)
  }

  lemma NamesAppend(a: seq<Part>, b: seq<Part>)
    ensures Names(a + b) == Names(a) + Names(b)
  {
  }

  /** `FormData.get(name)`: the value of the first part with that name, if any. */
  function Lookup(p: seq<Part>, name: string): (v: Option<PartValue>)
    ensures v == None <==> forall i | 0 <= i < |p| :: p[i].name != name
    ensures v != None ==> exists i | 0 <= i < |p| :: p[i].name == name && p[i].value == v.value
  {
    if p == [] then None
    else if p[0].name == name then Some(p[0].value)
    else Lookup(p[1..], name)
  }

  /** The form's ten keys in `Object.keys(formData)` order. */
  function FormParts(d: FormData): (p: seq<Part>)
    ensures |p| == |FieldOrder|
    ensures forall i | 0 <= i < |p| :: p[i] == Part(FieldName(FieldOrder[i]), Text(Get(d, FieldOrder[i])))
  {
    seq(|FieldOrder|, i requires 0 <= i < |FieldOrder| => Part(FieldName(FieldOrder[i]), Text(Get(d, FieldOrder[i]))))
  }

  /** The seven parts describing the job applied for. */
  function JobParts(job: Job): seq<Part> {
    [ Part("appliedRole", Text(job.title)),
      Part("jobDepartment", Text(job.department)),
      Part("jobLocation", Text(job.location)),
      Part("jobType", Text(job.kind)),
      Part("jobDescription", Text(job.description)),
      Part("jobResponsibilities", JsonList(job.responsibilities)),
      Part("jobRequirements", JsonList(job.requirements)) ]
  }

  /**
   * The form's keys in `Object.keys(formData)` order, checked against
   * `FieldName` over `FieldOrder` by `BuildPayload`'s contract.
   */
  const FormKeys: seq<string> :=
    ["firstName", "lastName", "email", "phone", "linkedin",
     "whyApply", "strengths", "teamWork", "adaptQuickly", "officeWork"]

  const JobKeys: seq<string> :=
    ["appliedRole", "jobDepartment", "jobLocation", "jobType", "jobDescription", "jobResponsibilities", "jobRequirements"]

  /** The part names of a submission, with or without a video. */
  function ExpectedNames(withVideo: bool): seq<string> {
    FormKeys + JobKeys + ["submittedAt", "cv"] + (if withVideo then ["video"] else []) + ["recaptchaToken"]
  }

  /**
   * The payload `handleSubmit` builds: the form fields, the job fields,
   * the timestamp (`submittedAt` is supplied by the caller, standing for
   * `new Date().toISOString()`), the CV, the video when one is attached,
   * and the CAPTCHA token.
   */
  function BuildPayload(d: FormData, job: Job, submittedAt: string, cv: FileInfo, video: Option<FileInfo>, token: string): (p: seq<Part>)
    ensures Names(p) == ExpectedNames(video.Some?)
    ensures forall i | 0 <= i < |FieldOrder| :: p[i] == Part(FieldName(FieldOrder[i]), Text(Get(d, FieldOrder[i])))
    ensures p[|p| - 1] == Part("recaptchaToken", Text(token))
  {
    var f := FormParts(d);
    var j := JobParts(job);
    var t := [Part("submittedAt", Text(submittedAt)), Part("cv", Binary(cv))];
    var v := if video.Some? then [Part("video", Binary(video.value))] else [];
    var k := [Part("recaptchaToken", Text(token))];
    NamesAppend(f, j);
    NamesAppend(f + j, t);
    NamesAppend(f + j + t, v);
    NamesAppend(f + j + t + v, k);
    assert Names(f) == FormKeys;
    f + j + t + v + k
  }

  /** No part name occurs twice in a payload. */
  lemma PayloadNamesDistinct(withVideo: bool)
    ensures var ns := ExpectedNames(withVideo);
      forall i, j | 0 <= i < j < |ns| :: ns[i] != ns[j]
  {
  }

  /** The text parts of a payload: everything but the uploaded files. */
  function TextPartCount(p: seq<Part>): (n: nat)
    ensures n <= |p|
  {
    if p == [] then 0 else (if p[0].value.Binary? then 0 else 1) + TextPartCount(p[1..])
  }

  /** The names of a built payload are pairwise different. */
  lemma BuiltPayloadNamesDistinct(d: FormData, job: Job, submittedAt: string, cv: FileInfo, video: Option<FileInfo>, token: string)
    ensures var p := BuildPayload(d, job, submittedAt, cv, video, token);
      forall a, b | 0 <= a < b < |p| :: p[a].name != p[b].name
  {
    var p := BuildPayload(d, job, submittedAt, cv, video, token);
    PayloadNamesDistinct(video.Some?);
    assert forall a | 0 <= a < |p| :: p[a].name == ExpectedNames(video.Some?)[a];
  }

  /** Reading a built payload back by the name of any of its parts gives that part's value. */
  lemma PayloadLookupAt(d: FormData, job: Job, submittedAt: string, cv: FileInfo, video: Option<FileInfo>, token: string, i: nat)
    requires i < |BuildPayload(d, job, submittedAt, cv, video, token)|
    ensures var p := BuildPayload(d, job, submittedAt, cv, video, token);
      Lookup(p, p[i].name) == Some(p[i].value)
  {
    var p := BuildPayload(d, job, submittedAt, cv, video, token);
    BuiltPayloadNamesDistinct(d, job, submittedAt, cv, video, token);
    LookupFindsUniqueName(p, p[i].name, i);
  }

  /** Reading a payload back by a form field's key gives that field's value. */
  lemma PayloadRoundTripFields(d: FormData, job: Job, submittedAt: string, cv: FileInfo, video: Option<FileInfo>, token: string, f: Field)
    ensures Lookup(BuildPayload(d, job, submittedAt, cv, video, token), FieldName(f)) == Some(Text(Get(d, f)))
  {
    var p := BuildPayload(d, job, submittedAt, cv, video, token);
    assert f in FieldOrder;
    var i :| 0 <= i < |FieldOrder| && FieldOrder[i] == f;
    PayloadLookupAt(d, job, submittedAt, cv, video, token, i);
  }

  /** Reading a payload back by name gives the job's title as the applied role, and the timestamp. */
  lemma PayloadRoundTripRoleAndTime(d: FormData, job: Job, submittedAt: string, cv: FileInfo, video: Option<FileInfo>, token: string)
    ensures var p := BuildPayload(d, job, submittedAt, cv, video, token);
      && Lookup(p, "appliedRole") == Some(Text(job.title))
      && Lookup(p, "submittedAt") == Some(Text(submittedAt))
  {
    var p := BuildPayload(d, job, submittedAt, cv, video, token);
    PayloadLayout(d, job, submittedAt, cv, video, token);
    assert p[10] == p[10..17][0] == Part("appliedRole", Text(job.title));
    PayloadLookupAt(d, job, submittedAt, cv, video, token, 10);
    PayloadLookupAt(d, job, submittedAt, cv, video, token, 17);
  }

  /** After the form parts come the seven job parts, the timestamp, the CV and, when attached, the video. */
  lemma PayloadLayout(d: FormData, job: Job, submittedAt: string, cv: FileInfo, video: Option<FileInfo>, token: string)
    ensures var p := BuildPayload(d, job, submittedAt, cv, video, token);
      && |p| >= 20 && p[10..17] == JobParts(job)
      && p[17] == Part("submittedAt", Text(submittedAt))
      && p[18] == Part("cv", Binary(cv))
      && (video.Some? ==> p[19] == Part("video", Binary(video.value)))
  {
    var f := FormParts(d);
    var j := JobParts(job);
    var t := [Part("submittedAt", Text(submittedAt)), Part("cv", Binary(cv))];
    var v := if video.Some? then [Part("video", Binary(video.value))] else [];
    var k := [Part("recaptchaToken", Text(token))];
    var p := f + j + t + v + k;
    var rest := t + v + k;
    assert p == (f + j) + rest;
    assert p[..17] == f + j;
    assert p[10..17] == p[..17][10..];
    assert p[17] == rest[0] && p[18] == rest[1] && p[19] == rest[2];
  }

  /** Reading a payload back by name gives the job's department and location. */
  lemma PayloadRoundTripJobPlace(d: FormData, job: Job, submittedAt: string, cv: FileInfo, video: Option<FileInfo>, token: string)
    ensures var p := BuildPayload(d, job, submittedAt, cv, video, token);
      && Lookup(p, "jobDepartment") == Some(Text(job.department))
      && Lookup(p, "jobLocation") == Some(Text(job.location))
  {
    var p := BuildPayload(d, job, submittedAt, cv, video, token);
    PayloadLayout(d, job, submittedAt, cv, video, token);
    assert p[11] == p[10..17][1] == Part("jobDepartment", Text(job.department));
    PayloadLookupAt(d, job, submittedAt, cv, video, token, 11);
    assert p[12] == p[10..17][2] == Part("jobLocation", Text(job.location));
    PayloadLookupAt(d, job, submittedAt, cv, video, token, 12);
  }

  /** Reading a payload back by name gives the job's type and description. */
  lemma PayloadRoundTripJobKind(d: FormData, job: Job, submittedAt: string, cv: FileInfo, video: Option<FileInfo>, token: string)
    ensures var p := BuildPayload(d, job, submittedAt, cv, video, token);
      && Lookup(p, "jobType") == Some(Text(job.kind))
      && Lookup(p, "jobDescription") == Some(Text(job.description))
  {
    var p := BuildPayload(d, job, submittedAt, cv, video, token);
    PayloadLayout(d, job, submittedAt, cv, video, token);
    assert p[13] == p[10..17][3] == Part("jobType", Text(job.kind));
    PayloadLookupAt(d, job, submittedAt, cv, video, token, 13);
    assert p[14] == p[10..17][4] == Part("jobDescription", Text(job.description));
    PayloadLookupAt(d, job, submittedAt, cv, video, token, 14);
  }

  /** Reading a payload back by name gives the job's responsibilities and requirements, each under its own key. */
  lemma PayloadRoundTripJobLists(d: FormData, job: Job, submittedAt: string, cv: FileInfo, video: Option<FileInfo>, token: string)
    ensures var p := BuildPayload(d, job, submittedAt, cv, video, token);
      && Lookup(p, "jobResponsibilities") == Some(JsonList(job.responsibilities))
      && Lookup(p, "jobRequirements") == Some(JsonList(job.requirements))
  {
    var p := BuildPayload(d, job, submittedAt, cv, video, token);
    PayloadLayout(d, job, submittedAt, cv, video, token);
    assert p[15] == p[10..17][5] == Part("jobResponsibilities", JsonList(job.responsibilities));
    PayloadLookupAt(d, job, submittedAt, cv, video, token, 15);
    assert p[16] == p[10..17][6] == Part("jobRequirements", JsonList(job.requirements));
    PayloadLookupAt(d, job, submittedAt, cv, video, token, 16);
  }

  /** Reading a payload back by name gives the CV and the CAPTCHA token. */
  lemma PayloadRoundTripCvAndToken(d: FormData, job: Job, submittedAt: string, cv: FileInfo, video: Option<FileInfo>, token: string)
    ensures var p := BuildPayload(d, job, submittedAt, cv, video, token);
      && Lookup(p, "cv") == Some(Binary(cv))
      && Lookup(p, "recaptchaToken") == Some(Text(token))
  {
    var p := BuildPayload(d, job, submittedAt, cv, video, token);
    PayloadLayout(d, job, submittedAt, cv, video, token);
    PayloadLookupAt(d, job, submittedAt, cv, video, token, 18);
    PayloadLookupAt(d, job, submittedAt, cv, video, token, |p| - 1);
  }

  /** A payload carries a video part exactly when a video is attached, and then it is that video. */
  lemma PayloadRoundTripVideo(d: FormData, job: Job, submittedAt: string, cv: FileInfo, video: Option<FileInfo>, token: string)
    ensures var p := BuildPayload(d, job, submittedAt, cv, video, token);
      && (video.None? ==> Lookup(p, "video") == None)
      && (video.Some? ==> Lookup(p, "video") == Some(Binary(video.value)))
  {
    var p := BuildPayload(d, job, submittedAt, cv, video, token);
    if video.Some? {
      PayloadLayout(d, job, submittedAt, cv, video, token);
      PayloadLookupAt(d, job, submittedAt, cv, video, token, 19);
    } else {
      var ns := Names(p);
      assert forall a | 0 <= a < |p| :: p[a].name == ns[a] != "video";
    }
  }

  lemma {:induction false} LookupFindsUniqueName(p: seq<Part>, name: string, i: nat)
    requires i < |p| && p[i].name == name
    requires forall a, b | 0 <= a < b < |p| :: p[a].name != p[b].name
    ensures Lookup(p, name) == Some(p[i].value)
  {
    if i > 0 {
      assert p[0].name != name;
      LookupFindsUniqueName(p[1..], name, i - 1);
    }
  }

  lemma {:induction false} TextPartCountAppend(a: seq<Part>, b: seq<Part>)
    ensures TextPartCount(a + b) == TextPartCount(a) + TextPartCount(b)
  {
    if a == [] {
      assert a + b == b;
    } else {
      assert (a + b)[1..] == a[1..] + b;
      TextPartCountAppend(a[1..], b);
    }
  }

  /** A payload always has 19 non-file parts: ten form fields, seven job fields, the timestamp and the token. */
  lemma TextPartsOfPayload(d: FormData, job: Job, submittedAt: string, cv: FileInfo, video: Option<FileInfo>, token: string)
    ensures TextPartCount(BuildPayload(d, job, submittedAt, cv, video, token)) == 19
  {
    var f := FormParts(d);
    var j := JobParts(job);
    var t := [Part("submittedAt", Text(submittedAt)), Part("cv", Binary(cv))];
    var v := if video.Some? then [Part("video", Binary(video.value))] else [];
    var k := [Part("recaptchaToken", Text(token))];
    TextPartCountAppend(f, j);
    TextPartCountAppend(f + j, t);
    TextPartCountAppend(f + j + t, v);
    TextPartCountAppend(f + j + t + v, k);
    assert TextPartCount(f) == 10 by { AllTextCount(f); }
    assert TextPartCount(j) == 7 by { AllTextCount(j); }
  }

  lemma {:induction false} AllTextCount(p: seq<Part>)
    requires forall i | 0 <= i < |p| :: !p[i].value.Binary?
    ensures TextPartCount(p) == |p|
  {
    if p != [] {
      AllTextCount(p[1..]);
    }
  }

  /**
   * How the outbound request ended. For a non-2xx response,
   * `serverMessage` is the string form of its JSON body's `message` when
   * that is truthy with a non-empty string form, and `None` when the body
   * is not JSON, has no `message` or a falsy one. A truthy `message` whose
   * string form is empty (such as `[]`) gives an `Error` with an empty
   * message, which the `catch` treats like `Unreachable("")`. A body that
   * is JSON `null` makes reading `message` throw inside the `try`, which
   * is `Unreachable` with that error's text.
   */
  datatype Outcome =
    | Delivered                                  // a 2xx response
    | Rejected(serverMessage: Option<string>)    // a non-2xx response
    | Unreachable(reason: string)                // `fetch` or the body read threw, with this error message

  const RejectedFallback := "Submission failed"
  const UnreachableFallback := "Failed to submit application. Please check your connection and try again."

  /**
   * The error text shown after a failed request: the server's message when
   * it sent a non-empty one, the network error's message when non-empty,
   * and a fixed fallback otherwise. It is never empty, so the error banner
   * always shows.
   */
  function FailureMessage(outcome: Outcome): (m: string)
    requires !outcome.Delivered?
    ensures m != ""
    ensures outcome.Rejected? ==>
      (m == RejectedFallback <==> outcome.serverMessage in {None, Some(""), Some(RejectedFallback)})
    ensures outcome.Rejected? && outcome.serverMessage.Some? && outcome.serverMessage.value != "" ==>
      m == outcome.serverMessage.value
    ensures outcome.Unreachable? && outcome.reason != "" ==> m == outcome.reason
    ensures outcome.Unreachable? ==> (m == UnreachableFallback <==> outcome.reason in {"", UnreachableFallback})
  {
    match outcome
    case Rejected(msg) =>
      if msg.Some? && msg.value != "" then msg.value else RejectedFallback
    case Unreachable(reason) =>
      if reason != "" then reason else UnreachableFallback
  }
}

=== FILE: text.dfy ===
/**
 * Character classes and `String.prototype.trim` as ECMAScript defines them.
 * The same whitespace set is used by `trim` and by the regular-expression
 * class `\s`, so both are modelled with the single predicate `IsWhitespace`.
 */
module Text {

  /**
   * ECMAScript WhiteSpace and LineTerminator code points: tab, vertical tab,
   * form feed, the byte-order mark, every Unicode "Zs" space separator, and
   * the four line terminators.
   */
  predicate IsWhitespace(c: char) {
    || c == '\t' || c == '\n' || c == '\U{000B}' || c == '\U{000C}' || c == '\r'
    || c == ' ' || c == '\U{00A0}' || c == '\U{1680}'
    || ('\U{2000}' <= c <= '\U{200A}')
    || c == '\U{2028}' || c == '\U{2029}' || c == '\U{202F}' || c == '\U{205F}'
    || c == '\U{3000}' || c == '\U{FEFF}'
  }

  /** The regular-expression class `\d`: the ASCII digits only. */
  predicate IsDigit(c: char) {
    '0' <= c <= '9'
  }

  /** Every character of `s` is whitespace (vacuously true of ""). */
  predicate AllWhitespace(s: string) {
    forall k | 0 <= k < |s| :: IsWhitespace(s[k])
  }

  /** No character of `s` is whitespace. */
  predicate NoWhitespace(s: string) {
    forall k | 0 <= k < |s| :: !IsWhitespace(s[k])
  }

  /** Removes leading whitespace. */
  function TrimStart(s: string): string
    decreases |s|
  {
    if |s| > 0 && IsWhitespace(s[0]) then TrimStart(s[1..]) else s
  }

  /** Removes trailing whitespace. */
  function TrimEnd(s: string): string
    decreases |s|
  {
    if |s| > 0 && IsWhitespace(s[|s| - 1]) then TrimEnd(s[..|s| - 1]) else s
  }

  /**
   * `TrimStart` keeps the longest suffix of `s` that does not start with
   * whitespace, and what it removes is all whitespace.
   */
  lemma {:induction false} TrimStartKeepsSuffix(s: string)
    ensures var r := TrimStart(s);
      && |r| <= |s| && r == s[|s| - |r|..]
      && AllWhitespace(s[..|s| - |r|])
      && (r == [] || !IsWhitespace(r[0]))
    decreases |s|
  {
    if |s| > 0 && IsWhitespace(s[0]) {
      TrimStartKeepsSuffix(s[1..]);
      var r := TrimStart(s[1..]);
      var cut := |s| - |r|;
      assert s[1..][cut - 1..] == s[cut..];
      forall k | 0 < k < cut ensures IsWhitespace(s[..cut][k]) {
        assert s[..cut][k] == s[1..][..cut - 1][k - 1];
      }
    } else {
      assert s[..0] == [];
    }
  }

  /**
   * `TrimEnd` keeps the longest prefix of `s` that does not end with
   * whitespace, and what it removes is all whitespace.
   */
  lemma {:induction false} TrimEndKeepsPrefix(s: string)
    ensures var r := TrimEnd(s);
      && |r| <= |s| && r == s[..|r|]
      && AllWhitespace(s[|r|..])
      && (r == [] || !IsWhitespace(r[|r| - 1]))
    decreases |s|
  {
    if |s| > 0 && IsWhitespace(s[|s| - 1]) {
      var init := s[..|s| - 1];
      TrimEndKeepsPrefix(init);
      var r := TrimEnd(init);
      assert init[..|r|] == s[..|r|];
      forall k | 0 <= k < |s| - |r| - 1 ensures IsWhitespace(s[|r|..][k]) {
        assert s[|r|..][k] == init[|r|..][k];
      }
    } else {
      assert s[|s|..] == [];
    }
  }

  /** `String.prototype.trim`: strips whitespace from both ends. */
  function Trim(s: string): string {
    TrimEnd(TrimStart(s))
  }

  /**
   * The source's test `!x.trim()`: a string is blank exactly when nothing
   * but whitespace remains after trimming, that is, when every one of its
   * characters is whitespace.
   */
  predicate IsBlank(s: string) {
    Trim(s) == ""
  }

  /** Trimming keeps a contiguous slice whose ends are not whitespace and drops only whitespace around it. */
  lemma TrimIsWhitespaceFreeSlice(s: string)
    ensures var r := Trim(s);
      exists i | 0 <= i <= |s| - |r| ::
        && r == s[i..i + |r|]
        && AllWhitespace(s[..i])
        && AllWhitespace(s[i + |r|..])
        && (r == [] || (!IsWhitespace(r[0]) && !IsWhitespace(r[|r| - 1])))
  {
    var t := TrimStart(s);
    var r := TrimEnd(t);
    TrimStartKeepsSuffix(s);
    TrimEndKeepsPrefix(t);
    var i := |s| - |t|;
    assert r == s[i..i + |r|];
    assert s[i + |r|..] == t[|r|..];
  }

  /** A string is blank after trimming iff it consists only of whitespace. */
  lemma BlankIffAllWhitespace(s: string)
    ensures IsBlank(s) <==> AllWhitespace(s)
  {
    var t := TrimStart(s);
    TrimStartKeepsSuffix(s);
    TrimEndKeepsPrefix(t);
    if IsBlank(s) {
      // Nothing survives TrimEnd, so t is all whitespace; but t cannot start with whitespace.
      assert t[|TrimEnd(t)|..] == t;
      assert t == [];
      assert s[..|s|] == s;
    }
  }
}
